=== FILE: README.md ===
# worldengine terrain colour pipeline, in Dafny

A model of how worldengine turns a generated world's elevation field into
pixels (`worldengine/draw.py`): the elevation colour ramp `elevation_color`
with its saturation step, the satellite biome palette, the four
height-based render modes — the simple coloured elevation map, the grayscale
heightmap, the three-pass satellite view (base colour with noise, in-place
smoothing, relief shading) and the inverted grey elevation map with optional
shadow — and the two-colour ocean map, which reads only the ocean mask.

The model is functional. A world is a record of row-major grids
(`Worlds.World`); a canvas is a grid of RGBA pixels. The simple, grayscale
and satellite modes are methods that scan the land and sea extremes in the
source's row-major order (`Worlds.FindExtremes`) and return either the
finished canvas or `Raises`, exactly when the source would raise (a
partition with no cells leaves its extremes `None`; a partition with a
single elevation divides zero by zero, and `int()` of the resulting NaN
fails). `draw_elevation` takes only the land extremes, with numpy's
masked-array `min()` and `max()`; since extremes are unique
(`Worlds.ExtremesUnique`) the model obtains them with the same scan, and it
raises only when land exists and is flat. `draw_ocean` reads no extremes,
never raises, and is the function `OceanMap.Draw`. The in-place smoothing
pass is a loop over a local grid proved equal to the row-major recursive
reference `Smoothing.SmoothFrom`; the in-place shading loop is proved equal
to `Shading.ShadePass`, a per-cell map of the grid before the pass, which
is sound because each shaded cell reads only its own colour. Python's
`int()` on a float is `Colors.Trunc` (toward zero); Python 2 integer
division on non-negative values is Dafny's `/`. Floats are reals.

Modules: `Colors` (colour values, truncation, saturation), `ElevationColor`
(`_elevation_color`, `elevation_color`), `Worlds` (world record, partitions,
extremes scan), `Normalize` (the rescalings of the render modes),
`BiomeColors` (the satellite palette), `SatelliteBase`, `Smoothing`,
`Shading` and `Satellite` (`draw_satellite`), `SimpleElevation`,
`Grayscale`, `ShadedElevation` (`draw_elevation`) and `OceanMap`
(`draw_ocean`).

Three behaviours of the source that a reader might not expect:

- With no sea level, `_elevation_color` sets the sea level to the integer
  -1, and Python 2 integer division makes its half -1 as well, so the land
  branch starts at -1 rather than -0.5: an elevation of -0.75 is coloured as
  land 0.25 above the sea level (`ElevationColor.UnsetSplitsAtMinusOne`). A
  given sea level is a float and is halved exactly.
- The wrap-around band above 8 colour steps is not periodic at exact
  multiples of its period: the fold loop subtracts while the excess is
  strictly greater than two steps, so an excess of exactly 3k (k >= 1) folds
  to 3, not 0, and gets green 0.25 rather than white
  (`ElevationColor.WrapExactMultiples`). Periodicity holds above the first
  period (`ElevationColor.LandColorPeriodic`).
- The simple, grayscale and satellite modes raise for a world of uniform
  elevation, since the extremes coincide and the rescaling divides by zero.
  `draw_elevation` raises for it only when the world has land; a world
  without land is drawn all blue. An all-land world also raises in the
  grayscale and satellite modes, and in the simple mode when a sea level is
  given, since the sea extremes stay `None`. The model returns `Raises` in
  exactly these cases.

## Model

| member | source | states |
|---|---|---|
| Colors.Trunc | worldengine/draw.py:258-259 | `int()` of a float lands within one of it, on the side of zero |
| Colors.Clamp01 | worldengine/draw.py:158-172 | one channel of `_sature_color` lands in [0,1], keeps values already there, and is the nearest point of [0,1] |
| Colors.Saturate | worldengine/draw.py:158-172 | the saturated colour is in the unit cube and colours already there are unchanged |
| Colors.ToByte | worldengine/draw.py:258-259 | `int(v * 255)` of a saturated channel is a byte, 0 maps to 0 and 1 to 255 |
| Colors.WithAlpha | worldengine/draw.py:191-194 | an RGB colour is stored opaque with its channels unchanged |
| Colors.OpaqueCanvas | worldengine/draw.py:421 | a colour grid becomes a canvas of the same shape with every pixel opaque |
| Colors.ReadWithAlpha | worldengine/draw.py:440 | reading a stored pixel back as `r, g, b, a` gives the colour that was stored |
| Colors.ReadOpaqueCanvas | worldengine/draw.py:421-465 | reading a stored image back, alpha dropped, gives the image: the opaque padding loses nothing, so each pass reads what the previous one wrote |
| ElevationColor.WrapFold | worldengine/draw.py:151-154 | the fold loop leaves 0 at 0, a value in (0, 2 steps] otherwise, and removes whole periods only |
| ElevationColor.WrapColor | worldengine/draw.py:151-155 | the wrap band is white-to-magenta: red and blue 1, green between 0.25 and 1, white at the band start |
| ElevationColor.HalfLevel | worldengine/draw.py:115-117 | the deep-sea threshold is half a given sea level; for an unset sea level it is the floor of half of -1, as Python 2 integer division gives, which lies strictly below the exact half -0.5 |
| ElevationColor.RawColor | worldengine/draw.py:108-155 | on the land branch (at or above both the sea level and its half) the colour is the land band colour of the height above the sea level; off it there is no red, and between the half and the sea level blue is full |
| ElevationColor.LandColor | worldengine/draw.py:124-155 | every land colour is already in the unit cube; below one colour step it is a pure green of at least 0.5; from the wrap band on red and blue are full |
| ElevationColor.ElevationColorOf | worldengine/draw.py:108-176 | the saturated ramp is always in the unit cube, and on the land branch equals the land band colour of the height above the sea level |
| ElevationColor.UnsetSplitsAtMinusOne | worldengine/draw.py:115-124 | with no sea level, elevations from -1 up are land coloured 1.0 higher and those below -1 are pure blue; -0.75 is land 0.25 |
| ElevationColor.LandColorBands | worldengine/draw.py:124-150 | a land height in [start k, start k+1) is coloured by band k's formula |
| ElevationColor.LandColorContinuous | worldengine/draw.py:124-150 | approaching each inner band boundary from below, the colour is within 4/3 of the distance of the colour at the boundary |
| ElevationColor.WrapBandContinuous | worldengine/draw.py:146-155 | the last band reaches white, which is where the wrap band starts |
| ElevationColor.SeaRampsMeet | worldengine/draw.py:117-122 | the deep and shallow sea ramps meet at pure blue at half the sea level, continuously |
| ElevationColor.SeaLevelStep | worldengine/draw.py:119-126 | at the sea level the shallow ramp would reach cyan but the land branch starts at dark green: the ramp jumps there |
| ElevationColor.LandColorPeriodic | worldengine/draw.py:151-155 | more than one period above the wrap band start, shifting the height by one period keeps the colour |
| ElevationColor.WrapFoldShift | worldengine/draw.py:152-154 | for a positive excess, adding whole periods does not change the fold |
| ElevationColor.WrapExactMultiples | worldengine/draw.py:151-155 | exact multiples of the period above the band start fold to a full period and are coloured green 0.25, unlike the band start itself |
| ElevationColor.SeaColorIsBlue | worldengine/draw.py:117-122 | below a positive sea level the colour has no red and blue at least 0.75; green is zero exactly in the lower half |
| Worlds.FindExtremes | worldengine/draw.py:316-328 | the row-major scan returns exactly the partition's extremes: both attained, all cells between, or no cells |
| Worlds.SpreadIff | worldengine/draw.py:330-331 | the range the source divides by is positive exactly when the partition has two cells of different elevation |
| Worlds.ExtremesUnique | worldengine/draw.py:225-242 | the extremes of a partition are unique, so every scan order gives the same scale |
| Normalize.Frac | worldengine/draw.py:252-256 | the fraction is in [0,1] for cells in range and is 0 and 1 exactly at the extremes |
| Normalize.FracMonotone | worldengine/draw.py:252-256 | the fraction preserves the order of elevations |
| Normalize.SimpleLand | worldengine/draw.py:244-254 | dividing by an eleventh of the range and adding 1 is 11 times the fraction plus 1 |
| Normalize.SimpleLandRange | worldengine/draw.py:244-254 | land heights of the simple mode span [1,12], lowest land on 1 and highest on 12 |
| Normalize.SimpleSea | worldengine/draw.py:246-256 | sea heights of the simple mode span [0,1], 0 and 1 exactly at the extremes |
| Normalize.LandByte | worldengine/draw.py:302 | land bytes span [128,255], lowest land on 128, 255 exactly at the highest land |
| Normalize.SeaByte | worldengine/draw.py:304 | sea bytes span [0,127], lowest sea on 0, 127 exactly at the highest sea |
| Normalize.BytesMonotone | worldengine/draw.py:302-304 | both byte scales preserve the order of elevations |
| Normalize.InvertedGrey | worldengine/draw.py:510 | the land grey spans [0,255], 255 at the lowest land and 0 at the highest |
| Normalize.InvertedGreyAntitone | worldengine/draw.py:510 | higher land never gets a lighter grey |
| Normalize.HeightByte | worldengine/draw.py:301-304 | a cell's byte is in the upper half exactly for land and the lower half for sea |
| BiomeColors.SatelliteColor | worldengine/draw.py:58-100 | every palette colour is three bytes; a missing biome is excluded by the precondition, as the lookup raises `KeyError` |
| SatelliteBase.Blend | worldengine/draw.py:374-376 | the mountain tint is the floor of the channel-wise mean |
| SatelliteBase.BaseColor | worldengine/draw.py:355-417 | per band, the first-pass colour is the (tinted) biome colour plus a tenth of the height byte plus the noise shifted by the band's net offset: none, (-2,-6,-2), (+3,+10,+3), (-4,-12,-4), (+10,+6,+10); sea adds no noise |
| SatelliteBase.NoiseIsAdditive | worldengine/draw.py:361-417 | shifting a land cell's noise shifts its colour by the same amount in every band |
| SatelliteBase.BaseColorCanOverflow | worldengine/draw.py:394-421 | the first pass does not clamp: an ice cell at height byte 170 with noise 10 gets green 292 |
| SatelliteBase.BasePass | worldengine/draw.py:349-421 | the first pass gives every cell the base colour of its biome, land flag, height byte and noise |
| SatelliteBase.SeaBaseBounds | worldengine/draw.py:405-417 | a sea cell is between its biome colour and 12 above it |
| SatelliteBase.LandBaseBounds | worldengine/draw.py:355-417 | with noise in [-10,10], a land cell is between 10 below and 45 above its tinted biome colour |
| Smoothing.Mean | worldengine/draw.py:446-449 | each channel of the floor mean is the largest integer whose product with the count does not exceed the channel sum |
| Smoothing.SmoothCell | worldengine/draw.py:428-452 | one step rewrites at most its own cell: a land cell becomes the mean of its non-empty window, a sea cell leaves the canvas unchanged |
| Smoothing.SmoothFrom | worldengine/draw.py:425-452 | the rest of the row-major pass never touches cells before its starting cell |
| Smoothing.Smooth | worldengine/draw.py:425-452 | the in-place loop equals the row-major reference and changes only land cells inside the border |
| Smoothing.SmoothRow | worldengine/draw.py:426-452 | one pass of the inner loop over a row leaves exactly what the row-major reference leaves for the rows after it |
| Smoothing.SmoothFromKeeps | worldengine/draw.py:425-428 | sea cells and border cells keep their colour through the pass |
| Smoothing.MeanWithin | worldengine/draw.py:446-449 | the floor mean of colours inside a box stays in the box |
| Smoothing.SmoothPreservesLandRange | worldengine/draw.py:425-452 | if all land colours are in a box before smoothing, they are all in it after |
| Smoothing.SmoothCellUniform | worldengine/draw.py:428-452 | on a canvas whose land cells share one colour, one step of the pass changes nothing |
| Smoothing.SmoothUniformFixedPoint | worldengine/draw.py:425-452 | when all land has one colour, smoothing changes nothing |
| Shading.WrapIndex | worldengine/draw.py:469 | a negative numpy index reads from the far end, congruent to the index |
| Shading.ShadeDelta | worldengine/draw.py:469-478 | the shading amount is a multiple of nine |
| Shading.ShadedPixel | worldengine/draw.py:464-488 | a shaded cell moves by the same multiple of nine in all three channels, and cells outside the window or on sea keep their colour |
| Shading.ShadePass | worldengine/draw.py:462-488 | each cell of the shaded grid is the shaded pixel of the grid before the pass |
| Shading.Shade | worldengine/draw.py:462-488 | the in-place loop equals the reference; every pixel moves by the same multiple of nine in all channels; sea cells and cells outside the window do not move |
| Shading.ShadeConstantElevation | worldengine/draw.py:469-478 | on a constant elevation field every delta is zero and the pass is a no-op |
| Shading.ShadeSign | worldengine/draw.py:469-485 | a cell at least as high as its five up-left cells is never darkened, one at most as high is never brightened |
| Satellite.DrawSatellite | worldengine/draw.py:308-488 | raises exactly when land or sea is missing or flat; otherwise the canvas is the three passes composed, opaque |
| Satellite.SatelliteImage | worldengine/draw.py:349-488 | a cell neither the smoothing nor the shading rewrites, in particular every ocean cell, ends with its first-pass colour |
| SimpleElevation.CellHeight | worldengine/draw.py:244-256 | cells scaled as land get a height in [1,12] and sea cells one in [0,1], with the ends exactly at the extremes |
| SimpleElevation.DrawSimpleElevation | worldengine/draw.py:217-259 | raises exactly when the land scope, or with a sea level the sea, is missing or flat; otherwise draws every cell's pixel |
| SimpleElevation.Pixel | worldengine/draw.py:250-259 | the pixel is opaque bytes; with a sea level of at most 1, cells scaled as land get the land band colour of their height above it, which with no sea level is the height shifted up by 1.0 (two-thirds of a colour step); with a positive sea level, sea cells have no red |
| SimpleElevation.SeaLevelOneSeaColors | worldengine/draw.py:255-259 | with sea level 1, every sea cell but the shallowest is blue with no red, the deepest is (0,0,191), and the shallowest is dark green (0,127,0) |
| SimpleElevation.LowestLandIsDarkGreen | worldengine/draw.py:253-259 | with sea level 1, the lowest land cell is the same dark green as the shallowest sea cell |
| Grayscale.Pixel | worldengine/draw.py:300-305 | the pixel is an opaque grey byte that is at least 128 exactly on land |
| Grayscale.DrawGrayscale | worldengine/draw.py:276-305 | raises exactly when land or sea is missing or flat; otherwise draws every cell's grey |
| Grayscale.MaskRoundTrip | worldengine/draw.py:300-305 | thresholding the heightmap at 128 gives back the ocean mask |
| Grayscale.GreyMonotone | worldengine/draw.py:301-304 | within land or within sea, higher cells are never darker |
| Grayscale.GreyEndpoints | worldengine/draw.py:301-304 | lowest land is 128 and lowest sea 0; 255 and 127 are reached exactly at the highest land and sea |
| ShadedElevation.ShadowPenalty | worldengine/draw.py:511-520 | the darkening is a multiple of 5 up to 30; it is 0 exactly when no up-left cell is higher, and 30 exactly when the three rise strictly away from the cell |
| ShadedElevation.PlainGrey | worldengine/draw.py:509-510 | the unshaded land grey is a byte |
| ShadedElevation.CellPenalty | worldengine/draw.py:511-520 | the penalty of a cell is between 0 and 30, and 0 exactly when none of its three up-left cells is higher |
| ShadedElevation.Pixel | worldengine/draw.py:506-523 | sea is exactly the blue pixel; land is an opaque grey equal to its unshaded grey where no shadow applies and otherwise that grey minus the cell's penalty, clamped at 0, so never more than 30 darker |
| ShadedElevation.DrawElevation | worldengine/draw.py:491-523 | raises exactly when land exists and is flat; a world without land is drawn all blue |
| ShadedElevation.ShadowOnlyBehindHigherGround | worldengine/draw.py:511-522 | with the shadow on, a land grey is unchanged exactly when no up-left cell is higher or the grey is already black |
| ShadedElevation.PlainGreyAntitone | worldengine/draw.py:509-510 | without shadow, higher land is never lighter |
| OceanMap.Pixel | worldengine/draw.py:531-534 | ocean pixels have no green and land pixels full green; both are opaque with full blue and no red |
| OceanMap.Draw | worldengine/draw.py:526-534 | the map has the mask's shape and each pixel is the colour of its mask cell |
| OceanMap.ReadDraw | worldengine/draw.py:526-534 | reading the map back gives the mask |
| OceanMap.DrawRead | worldengine/draw.py:526-534 | any canvas in the two map colours is the map of the mask it reads as |
| OceanMap.SeaThenLand | worldengine/draw.py:526-534 | a sea cell next to a land cell is drawn blue then cyan |

## Left out

- Image files, Pillow and the `*_on_file` wrappers: a canvas is a value; the
  target's `set_pixel`/`get_pixel` are grid updates and reads.
- Pillow's conversion of out-of-range channels when a pixel is stored: the
  canvas keeps unbounded integers, so the smoothing and shading passes read
  back exactly what the previous pass computed.
- The random noise of the satellite mode: `random.randint(-10, 10)` is an
  explicit per-cell argument; `SatelliteBase.IsNoise` states its range.
- Floating point: elevations and colour channels are reals, so rounding
  effects of IEEE doubles (for example in `int(r * 255)`) are not modelled.
- The `KeyError` of an unknown biome name in the satellite mode is a
  precondition (`SatelliteBase.BiomesKnown`), not a `Raises` outcome.
- The `ZeroDivisionError` of `_elevation_color` with a zero sea level on the
  sea branches is a precondition of `ElevationColor.RawColor`; the render
  modes never reach it, since their heights are non-negative.
- ElevationColor.HalfLevel: a given sea level is modelled as a float; an
  integer sea level other than the default would also be floor-divided by 2
  in Python 2, which the model does not follow.
- BiomeColors.SatelliteColor: states only that palette entries are bytes; the
  41 entries are the table itself.
- The rivers, ancient map, precipitation, temperature, biome, world and
  scatter-plot modes, the gradient helpers and the `_biome_colors` palette
  are not part of this model.

=== FILE: biome_colors.dfy ===
/** The satellite palette (`_biome_satellite_colors`): the base colour of
    each biome in the satellite render mode. The biome set is closed, so a
    name outside the table is a caller error (a `KeyError` in the source). */
module BiomeColors {
  import opened Colors

  const SatelliteColors: map<string, Color> := map[
    "ocean" := Color(23, 94, 145),
    "sea" := Color(23, 94, 145),
    "ice" := Color(255, 255, 255),
    "subpolar dry tundra" := Color(186, 199, 206),
    "subpolar moist tundra" := Color(186, 195, 202),
    "subpolar wet tundra" := Color(186, 195, 204),
    "subpolar rain tundra" := Color(186, 200, 210),
    "polar desert" := Color(182, 195, 201),
    "boreal desert" := Color(132, 146, 143),
    "cool temperate desert" := Color(183, 163, 126),
    "warm temperate desert" := Color(166, 142, 104),
    "subtropical desert" := Color(205, 181, 137),
    "tropical desert" := Color(203, 187, 153),
    "boreal rain forest" := Color(21, 29, 8),
    "cool temperate rain forest" := Color(25, 34, 15),
    "warm temperate rain forest" := Color(19, 28, 7),
    "subtropical rain forest" := Color(48, 60, 24),
    "tropical rain forest" := Color(21, 38, 6),
    "boreal wet forest" := Color(6, 17, 11),
    "cool temperate wet forest" := Color(6, 17, 11),
    "warm temperate wet forest" := Color(44, 48, 19),
    "subtropical wet forest" := Color(23, 36, 10),
    "tropical wet forest" := Color(23, 36, 10),
    "boreal moist forest" := Color(31, 39, 18),
    "cool temperate moist forest" := Color(31, 39, 18),
    "warm temperate moist forest" := Color(36, 42, 19),
    "subtropical moist forest" := Color(23, 31, 10),
    "tropical moist forest" := Color(24, 36, 11),
    "warm temperate dry forest" := Color(52, 51, 30),
    "subtropical dry forest" := Color(53, 56, 30),
    "tropical dry forest" := Color(54, 60, 30),
    "boreal dry scrub" := Color(73, 70, 61),
    "cool temperate desert scrub" := Color(80, 58, 44),
    "warm temperate desert scrub" := Color(92, 81, 49),
    "subtropical desert scrub" := Color(68, 57, 35),
    "tropical desert scrub" := Color(107, 87, 60),
    "cool temperate steppe" := Color(95, 82, 50),
    "warm temperate thorn scrub" := Color(77, 81, 48),
    "subtropical thorn woodland" := Color(27, 40, 12),
    "tropical thorn woodland" := Color(40, 62, 15),
    "tropical very dry forest" := Color(87, 81, 49)
  ]

  /** The base colour of a biome: a byte triple. */
  function SatelliteColor(biome: string): (c: Color)
    requires biome in SatelliteColors
    ensures IsByte(c.r) && IsByte(c.g) && IsByte(c.b)
  {
    SatelliteColors[biome]
  }
}

=== FILE: colors.dfy ===
/** Colour values shared by every render mode, and the two numeric conversions
    the renderer relies on: Python's `int()` on a float (truncation toward zero)
    and the per-channel saturation of a normalised colour into [0,1]. */
module Colors {

  /** A normalised colour: each channel is a real, nominally in [0,1]. */
  datatype Rgb = Rgb(r: real, g: real, b: real)

  /** An integer colour as the renderer computes it before it reaches the canvas.
      Channels are unbounded: the satellite passes may leave [0,255]. */
  datatype Color = Color(r: int, g: int, b: int)

  datatype Channel = Red | Green | Blue

  /** One channel of an integer colour. */
  function Get(c: Color, ch: Channel): int {
    match ch
    case Red => c.r
    case Green => c.g
    case Blue => c.b
  }

  /** Channel-wise sum of two integer colours. */
  function Plus(a: Color, b: Color): (s: Color)
    ensures forall ch :: Get(s, ch) == Get(a, ch) + Get(b, ch)
  {
    Color(a.r + b.r, a.g + b.g, a.b + b.b)
  }

  /** The same value in every channel. */
  function Grey(v: int): (c: Color)
    ensures forall ch :: Get(c, ch) == v
  {
    Color(v, v, v)
  }

  /** Every channel of `c` lies between the same channels of `lo` and `hi`. */
  predicate Within(c: Color, lo: Color, hi: Color) {
    && lo.r <= c.r <= hi.r
    && lo.g <= c.g <= hi.g
    && lo.b <= c.b <= hi.b
  }

  /** A canvas of integer colours, indexed `img[y][x]`; alpha is always
      opaque and left implicit. */
  type Image = seq<seq<Color>>

  /** An RGBA pixel handed to the canvas. */
  datatype Rgba = Rgba(r: int, g: int, b: int, a: int)

  const Opaque: int := 255

  /** The opaque blue the height maps draw sea with. */
  const SeaBlue: Rgba := Rgba(0, 0, 255, Opaque)

  /** What a render mode leaves on its target, indexed `canvas[y][x]`. */
  type Canvas = seq<seq<Rgba>>

  /** The outcome of a render mode: the finished canvas, or an exception the
      source raises before it completes (a partition with no cells or with a
      single elevation). */
  datatype Drawing = Drawn(canvas: Canvas) | Raises

  predicate InUnit(v: real) {
    0.0 <= v <= 1.0
  }

  predicate InUnitCube(c: Rgb) {
    InUnit(c.r) && InUnit(c.g) && InUnit(c.b)
  }

  predicate IsByte(v: int) {
    0 <= v <= 255
  }

  /** Python's `int(x)` for a float `x`: rounds toward zero. */
  function Trunc(x: real): (n: int)
    ensures x >= 0.0 ==> n as real <= x < n as real + 1.0
    ensures x < 0.0 ==> n as real - 1.0 < x <= n as real
  {
    if x >= 0.0 then x.Floor else -((-x).Floor)
  }

  /** Truncation is monotone. */
  lemma TruncMonotone(x: real, y: real)
    requires x <= y
    ensures Trunc(x) <= Trunc(y)
  {
  }

  /** Truncation keeps a value that lies in [lo,hi], for integer bounds. */
  lemma TruncWithin(x: real, lo: int, hi: int)
    requires lo as real <= x <= hi as real
    ensures lo <= Trunc(x) <= hi
  {
    TruncMonotone(lo as real, x);
    TruncMonotone(x, hi as real);
  }

  function Abs(v: real): real {
    if v < 0.0 then -v else v
  }

  /** One channel of `_sature_color`: the nearest point of [0,1]. */
  function Clamp01(v: real): (r: real)
    ensures InUnit(r)
    ensures InUnit(v) ==> r == v
    ensures forall u :: InUnit(u) ==> Abs(v - r) <= Abs(v - u)
  {
    if v < 0.0 then 0.0 else if v > 1.0 then 1.0 else v
  }

  /** `_sature_color`: saturates each channel into [0,1]. */
  function Saturate(c: Rgb): (s: Rgb)
    ensures InUnitCube(s)
    ensures InUnitCube(c) ==> s == c
  {
    Rgb(Clamp01(c.r), Clamp01(c.g), Clamp01(c.b))
  }

  /** The conversion `int(v * 255)` the simple elevation mode applies to a
      saturated channel. */
  function ToByte(v: real): (n: int)
    requires InUnit(v)
    ensures IsByte(n)
    ensures v == 0.0 ==> n == 0
    ensures v == 1.0 ==> n == 255
  {
    TruncWithin(v * 255.0, 0, 255);
    Trunc(v * 255.0)
  }

  /** The opaque RGBA pixel the canvas stores for an RGB colour. */
  function WithAlpha(c: Color): (p: Rgba)
    ensures p.a == Opaque
    ensures p.r == c.r && p.g == c.g && p.b == c.b
  {
    Rgba(c.r, c.g, c.b, Opaque)
  }

  /** The canvas stored for an integer image: every pixel opaque. */
  function OpaqueCanvas(img: Image): (c: Canvas)
    ensures |c| == |img|
    ensures forall y :: 0 <= y < |img| ==> |c[y]| == |img[y]|
    ensures forall y, x :: 0 <= y < |img| && 0 <= x < |img[y]| ==> c[y][x] == WithAlpha(img[y][x])
  {
    seq(|img|, y requires 0 <= y < |img| =>
      seq(|img[y]|, x requires 0 <= x < |img[y]| => WithAlpha(img[y][x])))
  }

  /** The colour part of a stored pixel, as `r, g, b, a = target.get_pixel(..)`
      reads it. */
  function ColorOf(p: Rgba): Color {
    Color(p.r, p.g, p.b)
  }

  /** The colour grid a canvas holds, alpha dropped. */
  function ColorsOf(c: Canvas): (img: Image)
    ensures |img| == |c| && forall y :: 0 <= y < |c| ==> |img[y]| == |c[y]|
  {
    seq(|c|, y requires 0 <= y < |c| =>
      seq(|c[y]|, x requires 0 <= x < |c[y]| => ColorOf(c[y][x])))
  }

  /** Storing a colour and reading it back gives the colour. */
  lemma ReadWithAlpha(c: Color)
    ensures ColorOf(WithAlpha(c)) == c
  {
  }

  /** Storing an image and reading the canvas back gives the image: the
      alpha padding loses nothing. */
  lemma {:induction false} ReadOpaqueCanvas(img: Image)
    ensures ColorsOf(OpaqueCanvas(img)) == img
  {
    var back := ColorsOf(OpaqueCanvas(img));
    forall y | 0 <= y < |img|
      ensures back[y] == img[y]
    {
    }
  }
}

=== FILE: elevation_color.dfy ===
/** The continuous elevation-to-colour mapping (`_elevation_color`,
    `_sature_color`, `elevation_color`): two sea ramps below the sea level,
    six linear land bands from half a `ColorStep` to three steps wide, and a
    folding white/magenta band above the highest one. */
module ElevationColor {
  import opened Colors

  const ColorStep: real := 1.5

  /** The length of the folding band above the sixth land band. */
  const WrapPeriod: real := 2.0 * ColorStep

  /** The optional `sea_level` argument. */
  datatype SeaLevel = Unset | Level(value: real)

  /** An unset sea level is treated as -1. */
  function Resolve(s: SeaLevel): real {
    match s
    case Unset => -1.0
    case Level(v) => v
  }

  /** The threshold `sea_level/2` of the deep-sea ramp. A given sea level is a
      float and is halved exactly; the unset one is the integer -1, and
      Python 2's integer division floors -1/2 to -1. */
  function HalfLevel(s: SeaLevel): (h: real)
    ensures s.Level? ==> h == s.value / 2.0
    ensures s.Unset? ==> h == (Resolve(s) / 2.0).Floor as real && h < Resolve(s) / 2.0
  {
    match s
    case Unset => -1.0
    case Level(v) => v / 2.0
  }

  /** Deep-sea ramp, for `ratio` = elevation / sea level. */
  function DeepSea(ratio: real): Rgb {
    Rgb(0.0, 0.0, 0.75 + 0.5 * ratio)
  }

  /** Shallow-sea ramp, for `ratio` = elevation / sea level. */
  function ShallowSea(ratio: real): Rgb {
    Rgb(0.0, 2.0 * (ratio - 0.5), 1.0)
  }

  /** Lower end of land band `k`, as height above the sea level; band 6 is
      the folding band. */
  function BandStart(k: nat): real
    requires k <= 6
  {
    [0.0, 1.0, 1.5, 2.0, 3.0, 5.0, 8.0][k] * ColorStep
  }

  /** The linear formula of land band `k` at height `h` above the sea level. */
  function BandColor(k: nat, h: real): Rgb
    requires k < 6
  {
    match k
    case 0 => Rgb(0.0, 0.5 + 0.5 * h / ColorStep, 0.0)
    case 1 => Rgb(2.0 * (h - 1.0 * ColorStep) / ColorStep, 1.0, 0.0)
    case 2 => Rgb(1.0, 1.0 - (h - 1.5 * ColorStep) / ColorStep, 0.0)
    case 3 => Rgb(1.0 - 0.5 * (h - 2.0 * ColorStep) / ColorStep,
                  0.5 - 0.25 * (h - 2.0 * ColorStep) / ColorStep, 0.0)
    case 4 =>
      var t := (h - 3.0 * ColorStep) / (2.0 * ColorStep);
      Rgb(0.5 - 0.125 * t, 0.25 + 0.125 * t, 0.375 * t)
    case 5 =>
      var v := 0.375 + 0.625 * (h - 5.0 * ColorStep) / (3.0 * ColorStep);
      Rgb(v, v, v)
  }

  /** `d` is a whole, non-negative number of wrap periods. */
  predicate WholePeriods(d: real) {
    var q := d / WrapPeriod;
    q >= 0.0 && q.Floor as real == q
  }

  /** The loop of the folding band: subtracts the period while the excess is
      strictly above it. The result is the excess reduced into (0, period],
      or 0 for a zero excess. */
  function WrapFold(x: real): (f: real)
    requires x >= 0.0
    ensures x == 0.0 ==> f == 0.0
    ensures x > 0.0 ==> 0.0 < f <= WrapPeriod
    ensures WholePeriods(x - f)
    decreases x.Floor
  {
    if x > WrapPeriod then
      FloorStep(x);
      var f := WrapFold(x - WrapPeriod);
      WholePeriodsStep(x - WrapPeriod - f);
      assert x - f == (x - WrapPeriod - f) + WrapPeriod;
      f
    else
      assert (x - x) / WrapPeriod == 0.0;
      x
  }

  lemma FloorStep(x: real)
    ensures (x - WrapPeriod).Floor == x.Floor - 3
  {
  }

  /** Adding one period keeps a whole number of periods. */
  lemma WholePeriodsStep(d: real)
    requires WholePeriods(d)
    ensures WholePeriods(d + WrapPeriod)
  {
    var q := d / WrapPeriod;
    assert (d + WrapPeriod) / WrapPeriod == q + 1.0;
    assert (q + 1.0).Floor == q.Floor + 1;
  }

  /** Colour of the folding band for excess `x` above the sixth band. */
  function WrapColor(x: real): (c: Rgb)
    requires x >= 0.0
    ensures c.r == 1.0 && c.b == 1.0
    ensures 0.25 <= c.g <= 1.0
    ensures x == 0.0 ==> c.g == 1.0
  {
    Rgb(1.0, 1.0 - WrapFold(x) / 4.0, 1.0)
  }

  /** The land part of `_elevation_color`, for height `h` above sea level.
      Every land colour already lies in the unit cube; the lowest band is
      pure green and the folding band keeps red and blue full. */
  function LandColor(h: real): (c: Rgb)
    ensures h >= 0.0 ==> InUnitCube(c)
    ensures 0.0 <= h < BandStart(1) ==> c.r == 0.0 && c.b == 0.0 && 0.5 <= c.g < 1.0
    ensures h >= BandStart(6) ==> c.r == 1.0 && c.b == 1.0
  {
    if h < 1.0 * ColorStep then BandColor(0, h)
    else if h < 1.5 * ColorStep then BandColor(1, h)
    else if h < 2.0 * ColorStep then BandColor(2, h)
    else if h < 3.0 * ColorStep then BandColor(3, h)
    else if h < 5.0 * ColorStep then BandColor(4, h)
    else if h < 8.0 * ColorStep then BandColor(5, h)
    else WrapColor(h - 8.0 * ColorStep)
  }

  /** The elevation takes the land branch: it is below neither the sea level
      nor its half (for a negative given level the half is the larger; for
      the unset level of -1 the two are equal). */
  predicate OnLand(e: real, sea: SeaLevel) {
    e >= Resolve(sea) && e >= HalfLevel(sea)
  }

  /** `_elevation_color`. The sea ramps divide by the sea level, so a zero sea
      level is only usable for elevations on the land branch. Both sea ramps
      have no red; the land branch is the band colour of the height above the
      sea level. */
  function RawColor(e: real, sea: SeaLevel): (c: Rgb)
    requires Resolve(sea) != 0.0 || e >= 0.0
    ensures OnLand(e, sea) ==> c == LandColor(e - Resolve(sea))
    ensures !OnLand(e, sea) ==> c.r == 0.0
    ensures !OnLand(e, sea) && e >= HalfLevel(sea) ==> c.b == 1.0
  {
    var s := Resolve(sea);
    if e < HalfLevel(sea) then DeepSea(e / s)
    else if e < s then ShallowSea(e / s)
    else LandColor(e - s)
  }

  /** `elevation_color`: the raw colour saturated into [0,1]. Land colours are
      already in range, so saturation only ever changes sea colours. */
  function ElevationColorOf(e: real, sea: SeaLevel): (c: Rgb)
    requires Resolve(sea) != 0.0 || e >= 0.0
    ensures InUnitCube(c)
    ensures OnLand(e, sea) ==> c == LandColor(e - Resolve(sea))
  {
    Saturate(RawColor(e, sea))
  }

  /** Each land height falls in exactly the band its start values say. */
  lemma LandColorBands(k: nat, h: real)
    requires k < 6
    requires BandStart(k) <= h < BandStart(k + 1)
    ensures LandColor(h) == BandColor(k, h)
  {
  }

  /** Two colours differ by at most `eps` in every channel. */
  predicate Near(a: Rgb, b: Rgb, eps: real) {
    Abs(a.r - b.r) <= eps && Abs(a.g - b.g) <= eps && Abs(a.b - b.b) <= eps
  }

  /** Adjacent band formulas meet at the start of the upper band: the lower
      formula `d` before the start is within 4/3 of `d` (the steepest slope of
      any band) of the upper formula at the start. */
  lemma BandFormulasMeet(k: nat, d: real)
    requires 1 <= k < 6
    requires 0.0 < d <= 0.75
    ensures Near(BandColor(k - 1, BandStart(k) - d), BandColor(k, BandStart(k)), 4.0 / 3.0 * d)
  {
  }

  /** The land colour is continuous from the left at the start of each of the
      land bands 1 to 5. */
  lemma LandColorContinuous(k: nat, d: real)
    requires 1 <= k < 6
    requires 0.0 < d <= 0.75
    ensures Near(LandColor(BandStart(k) - d), LandColor(BandStart(k)), 4.0 / 3.0 * d)
  {
    BandFormulasMeet(k, d);
    var lo, at := BandStart(k) - d, BandStart(k);
    LandColorBands(k - 1, lo);
    LandColorBands(k, at);
  }

  /** The land colour is continuous from the left where the sixth band hands
      over to the folding band: both sides approach white. */
  lemma WrapBandContinuous(d: real)
    requires 0.0 < d <= 0.75
    ensures LandColor(BandStart(6)) == Rgb(1.0, 1.0, 1.0)
    ensures Near(LandColor(BandStart(6) - d), LandColor(BandStart(6)), 4.0 / 3.0 * d)
  {
    assert WrapFold(0.0) == 0.0;
    assert BandStart(6) == 12.0;
    assert LandColor(12.0 - d) == BandColor(5, 12.0 - d);
  }

  /** The deep and shallow sea ramps meet at half a positive sea level:
      an elevation `d` sea levels below it is at most `d` away in colour. */
  lemma SeaRampsMeet(s: real, d: real)
    requires s > 0.0
    requires 0.0 < d <= 0.5
    ensures RawColor(s / 2.0, Level(s)) == Rgb(0.0, 0.0, 1.0)
    ensures Near(RawColor(s * (0.5 - d), Level(s)), RawColor(s / 2.0, Level(s)), d)
  {
    assert (s / 2.0) / s == 0.5;
    RatioOf(s, 0.5 - d);
  }

  lemma RatioOf(s: real, x: real)
    requires s != 0.0
    ensures (s * x) / s == x
  {
    var q := (s * x) / s;
    assert q * s == s * x;
    assert s * (q - x) == 0.0;
  }

  /** At the sea level itself the colour jumps: the shallow ramp tends to cyan
      while the lowest land colour is dark green. */
  lemma SeaLevelStep(s: real)
    requires s > 0.0
    ensures ShallowSea(s / s) == Rgb(0.0, 1.0, 1.0)
    ensures RawColor(s, Level(s)) == Rgb(0.0, 0.5, 0.0)
  {
    assert s / s == 1.0;
    assert OnLand(s, Level(s));
    assert LandColor(0.0) == Rgb(0.0, 0.5, 0.0);
  }

  /** Above the sixth band the colour repeats with the wrap period. */
  lemma LandColorPeriodic(h: real)
    requires h > BandStart(6) + WrapPeriod
    ensures LandColor(h) == LandColor(h - WrapPeriod)
  {
  }

  /** Folding a positive excess shifted by whole periods gives the same result. */
  lemma {:induction false} WrapFoldShift(x: real, k: nat)
    requires 0.0 < x
    ensures WrapFold(x + k as real * WrapPeriod) == WrapFold(x)
  {
    if k > 0 {
      WrapFoldShift(x, k - 1);
      assert x + (k - 1) as real * WrapPeriod == x + k as real * WrapPeriod - WrapPeriod;
    }
  }

  /** An excess that is a positive whole number of periods folds to the full
      period, not to zero, so its green is 0.25 rather than the 1.0 of a zero
      excess: the band is not periodic at those points. */
  lemma WrapExactMultiples(k: nat)
    requires k >= 1
    ensures WrapFold(k as real * WrapPeriod) == WrapPeriod
    ensures LandColor(BandStart(6) + k as real * WrapPeriod).g == 0.25
    ensures LandColor(BandStart(6)).g == 1.0
  {
    WrapFoldShift(WrapPeriod, k - 1);
    assert WrapPeriod + (k - 1) as real * WrapPeriod == k as real * WrapPeriod;
  }

  /** Scaling by a positive factor keeps strict order, both ways. */
  lemma ScaleOrder(a: real, b: real, s: real)
    requires s > 0.0
    ensures a < b <==> a * s < b * s
  {
    if a < b {
      assert (b - a) * s > 0.0;
    } else {
      assert (a - b) * s >= 0.0;
    }
  }

  /** A quotient by a positive number is below `k` exactly when the
      dividend is below `k` times the divisor. */
  lemma QuotientBelow(e: real, s: real, k: real)
    requires s > 0.0
    ensures e / s < k <==> e < k * s
  {
    var f := e / s;
    assert f * s == e;
    ScaleOrder(f, k, s);
    assert k * s == s * k;
  }

  /** Below a positive sea level the ramp is pure sea: no red, and at least
      three quarters blue; the green rises only in the upper half. */
  lemma SeaColorIsBlue(e: real, s: real)
    requires s > 0.0 && 0.0 <= e < s
    ensures var c := ElevationColorOf(e, Level(s));
      c.r == 0.0 && c.b >= 0.75 && (e < s / 2.0 <==> c.g == 0.0 && c.b < 1.0)
  {
    QuotientBelow(e, s, 1.0);
    QuotientBelow(e, s, 0.0);
    QuotientBelow(e, s, 0.5);
  }

  /** With no sea level, the land branch starts at -1, not at -0.5: every
      elevation from -1 up is coloured as land one unit higher, and only
      elevations below -1 are sea, saturated to pure blue. */
  lemma UnsetSplitsAtMinusOne(e: real)
    ensures e >= -1.0 ==> ElevationColorOf(e, Unset) == LandColor(e + 1.0)
    ensures e < -1.0 ==> ElevationColorOf(e, Unset) == Rgb(0.0, 0.0, 1.0)
    ensures ElevationColorOf(-0.75, Unset) == LandColor(0.25)
  {
    if e < -1.0 {
      assert e / -1.0 == -e;
    }
  }
}

=== FILE: grayscale.dfy ===
/** `draw_grayscale_heightmap`: land in the upper half of the grey range and
    sea in the lower half, each rescaled with its own extremes, so the grey
    value alone tells land from sea. */
module Grayscale {
  import opened Colors
  import opened Worlds
  import opened Normalize

  /** The grey pixel of one cell. */
  function Pixel(w: World, land: Extremes, sea: Extremes, x: int, y: int): (p: Rgba)
    requires w.Valid() && w.InBounds(x, y) && SplitScaled(w, land, sea)
    ensures p.g == p.r && p.b == p.r && p.a == Opaque && IsByte(p.r)
    ensures p.r >= 128 <==> !w.ocean[y][x]
  {
    var c := HeightByte(w, land, sea, x, y);
    Rgba(c, c, c, Opaque)
  }

  function Canvas(w: World, land: Extremes, sea: Extremes): (c: Colors.Canvas)
    requires w.Valid() && SplitScaled(w, land, sea)
    ensures IsGrid(c, w.width, w.height)
    ensures forall x, y :: w.InBounds(x, y) ==> c[y][x] == Pixel(w, land, sea, x, y)
  {
    seq(w.height, y requires 0 <= y < w.height =>
      seq(w.width, x requires 0 <= x < w.width => Pixel(w, land, sea, x, y)))
  }

  /** `draw_grayscale_heightmap`. It raises exactly when land or sea is
      missing or flat. */
  method DrawGrayscale(w: World) returns (r: Drawing, land: Extremes, sea: Extremes)
    requires w.Valid()
    ensures IsExtremesOf(w, LandCells, land) && IsExtremesOf(w, SeaCells, sea)
    ensures r.Raises? <==> !(Spread(w, LandCells) && Spread(w, SeaCells))
    ensures r.Drawn? ==> SplitScaled(w, land, sea) && r.canvas == Canvas(w, land, sea)
  {
    land := FindExtremes(w, LandCells);
    sea := FindExtremes(w, SeaCells);
    SpreadIff(w, LandCells, land);
    SpreadIff(w, SeaCells, sea);
    if !(Proper(land) && Proper(sea)) {
      return Raises, land, sea;
    }
    r := Drawn(Canvas(w, land, sea));
  }

  /** The ocean mask read back from a grayscale canvas. */
  function OceanMask(c: Colors.Canvas): (m: seq<seq<bool>>)
    ensures |m| == |c| && forall y :: 0 <= y < |c| ==> |m[y]| == |c[y]|
  {
    seq(|c|, y requires 0 <= y < |c| =>
      seq(|c[y]|, x requires 0 <= x < |c[y]| => c[y][x].r < 128))
  }

  /** The grayscale heightmap keeps the ocean mask: reading it back gives the
      world's mask. */
  lemma MaskRoundTrip(w: World, land: Extremes, sea: Extremes)
    requires w.Valid() && SplitScaled(w, land, sea)
    ensures OceanMask(Canvas(w, land, sea)) == w.ocean
  {
    var m := OceanMask(Canvas(w, land, sea));
    forall y | 0 <= y < w.height
      ensures m[y] == w.ocean[y]
    {
    }
  }

  /** Within a partition, the grey never decreases with elevation. */
  lemma GreyMonotone(w: World, land: Extremes, sea: Extremes, x1: int, y1: int, x2: int, y2: int)
    requires w.Valid() && SplitScaled(w, land, sea)
    requires w.InBounds(x1, y1) && w.InBounds(x2, y2) && w.ocean[y1][x1] == w.ocean[y2][x2]
    requires w.elevation[y1][x1] <= w.elevation[y2][x2]
    ensures Pixel(w, land, sea, x1, y1).r <= Pixel(w, land, sea, x2, y2).r
  {
    if w.ocean[y1][x1] {
      BytesMonotone(w.elevation[y1][x1], w.elevation[y2][x2], sea.lo, sea.hi);
    } else {
      BytesMonotone(w.elevation[y1][x1], w.elevation[y2][x2], land.lo, land.hi);
    }
  }

  /** Each half of the grey range starts at the lowest cell of its partition
      and reaches its top at the highest cell, and only there. */
  lemma GreyEndpoints(w: World, land: Extremes, sea: Extremes, x: int, y: int)
    requires w.Valid() && SplitScaled(w, land, sea) && w.InBounds(x, y)
    ensures var p := Pixel(w, land, sea, x, y);
      && (!w.ocean[y][x] && w.elevation[y][x] == land.lo ==> p.r == 128)
      && (!w.ocean[y][x] ==> (p.r == 255 <==> w.elevation[y][x] == land.hi))
      && (w.ocean[y][x] && w.elevation[y][x] == sea.lo ==> p.r == 0)
      && (w.ocean[y][x] ==> (p.r == 127 <==> w.elevation[y][x] == sea.hi))
  {
    if w.ocean[y][x] {
      assert InPartition(w, SeaCells, x, y);
    } else {
      assert InPartition(w, LandCells, x, y);
    }
  }
}

=== FILE: normalize.dfy ===
/** Rescaling a cell's elevation with its partition's extremes, in the three
    forms the render modes use: the simple mode's eleven land bands and unit
    sea ramp, the grey byte halves of the grayscale and satellite modes, and
    the inverted land grey of the shaded elevation mode. Each form divides by
    `hi - lo`, so each needs a partition that is not flat. */
module Normalize {
  import opened Colors
  import opened Worlds

  /** Where `e` sits between `lo` and `hi`, as a fraction. */
  function Frac(e: real, lo: real, hi: real): (f: real)
    requires lo < hi
    ensures lo <= e <= hi ==> 0.0 <= f <= 1.0
    ensures f == 0.0 <==> e == lo
    ensures f == 1.0 <==> e == hi
  {
    DivFacts(e - lo, hi - lo);
    (e - lo) / (hi - lo)
  }

  lemma DivFacts(a: real, d: real)
    requires d > 0.0
    ensures 0.0 <= a <= d ==> 0.0 <= a / d <= 1.0
    ensures a / d == 0.0 <==> a == 0.0
    ensures a / d == 1.0 <==> a == d
  {
    var f := a / d;
    assert f * d == a;
  }

  /** Dividing by a positive number keeps order. */
  lemma DivMonotone(a: real, b: real, d: real)
    requires d > 0.0
    requires a <= b
    ensures a / d <= b / d
  {
    assert (a / d) * d == a && (b / d) * d == b;
  }

  /** Fractions preserve the order of elevations. */
  lemma FracMonotone(e1: real, e2: real, lo: real, hi: real)
    requires lo < hi
    requires e1 <= e2
    ensures Frac(e1, lo, hi) <= Frac(e2, lo, hi)
  {
    DivMonotone(e1 - lo, e2 - lo, hi - lo);
  }

  /** `(e - lo) * k / (hi - lo)` is `k` times the fraction. */
  lemma ScaledFrac(e: real, lo: real, hi: real, k: real)
    requires lo < hi
    ensures (e - lo) * k / (hi - lo) == k * Frac(e, lo, hi)
    ensures k != 0.0 ==> (e - lo) / ((hi - lo) / k) == k * Frac(e, lo, hi)
  {
    var d := hi - lo;
    var f := Frac(e, lo, hi);
    assert f * d == e - lo;
    var q := (e - lo) * k / d;
    assert q * d == (e - lo) * k;
    assert (q - k * f) * d == 0.0;
    if k != 0.0 {
      var q' := (e - lo) / (d / k);
      assert q' * (d / k) == e - lo;
      assert (d / k) * k == d;
      assert q' * d == (e - lo) * k;
      assert (q' - k * f) * d == 0.0;
    }
  }

  /** Simple mode, land: the land range stretched over [1,12], so that the
      colour ramp sees eleven bands above 1. */
  function SimpleLand(e: real, lo: real, hi: real): (c: real)
    requires lo < hi
    ensures c == 11.0 * Frac(e, lo, hi) + 1.0
  {
    ScaledFrac(e, lo, hi, 11.0);
    (e - lo) / ((hi - lo) / 11.0) + 1.0
  }

  /** Simple mode, land cells land in [1,12], the minimum on 1 and the
      maximum on 12, in order. */
  lemma SimpleLandRange(e: real, lo: real, hi: real)
    requires lo < hi
    requires lo <= e <= hi
    ensures 1.0 <= SimpleLand(e, lo, hi) <= 12.0
    ensures SimpleLand(lo, lo, hi) == 1.0 && SimpleLand(hi, lo, hi) == 12.0
  {
  }

  /** Simple mode, sea: the sea range onto [0,1] with no offset. */
  function SimpleSea(e: real, lo: real, hi: real): (c: real)
    requires lo < hi
    ensures lo <= e <= hi ==> 0.0 <= c <= 1.0
    ensures c == 0.0 <==> e == lo
    ensures c == 1.0 <==> e == hi
  {
    Frac(e, lo, hi)
  }

  /** Grayscale and satellite modes, land: the upper half of the byte range,
      truncated. */
  function LandByte(e: real, lo: real, hi: real): (c: int)
    requires lo < hi
    ensures lo <= e <= hi ==> 128 <= c <= 255
    ensures e == lo ==> c == 128
    ensures lo <= e <= hi ==> (c == 255 <==> e == hi)
  {
    ScaledFrac(e, lo, hi, 127.0);
    var x := (e - lo) * 127.0 / (hi - lo);
    assert lo <= e <= hi ==> 0 <= Trunc(x) <= 127 by {
      if lo <= e <= hi {
        TruncWithin(x, 0, 127);
      }
    }
    assert lo <= e < hi ==> x < 127.0;
    Trunc(x) + 128
  }

  /** Grayscale and satellite modes, sea: the lower half of the byte range,
      truncated. */
  function SeaByte(e: real, lo: real, hi: real): (c: int)
    requires lo < hi
    ensures lo <= e <= hi ==> 0 <= c <= 127
    ensures e == lo ==> c == 0
    ensures lo <= e <= hi ==> (c == 127 <==> e == hi)
  {
    ScaledFrac(e, lo, hi, 127.0);
    var x := (e - lo) * 127.0 / (hi - lo);
    assert lo <= e <= hi ==> 0 <= Trunc(x) <= 127 by {
      if lo <= e <= hi {
        TruncWithin(x, 0, 127);
      }
    }
    assert lo <= e < hi ==> x < 127.0;
    Trunc(x)
  }

  /** The byte scales preserve the order of elevations. */
  lemma BytesMonotone(e1: real, e2: real, lo: real, hi: real)
    requires lo < hi
    requires e1 <= e2
    ensures LandByte(e1, lo, hi) <= LandByte(e2, lo, hi)
    ensures SeaByte(e1, lo, hi) <= SeaByte(e2, lo, hi)
  {
    FracMonotone(e1, e2, lo, hi);
    ScaledFrac(e1, lo, hi, 127.0);
    ScaledFrac(e2, lo, hi, 127.0);
    TruncMonotone((e1 - lo) * 127.0 / (hi - lo), (e2 - lo) * 127.0 / (hi - lo));
  }

  /** The shaded elevation mode: land grey falls from 255 at the lowest land
      to 0 at the highest. */
  function InvertedGrey(e: real, lo: real, hi: real): (c: int)
    requires lo < hi
    ensures lo <= e <= hi ==> 0 <= c <= 255
    ensures e == lo ==> c == 255
    ensures e == hi ==> c == 0
  {
    ScaledFrac(e, lo, hi, 255.0);
    var x := (e - lo) * 255.0 / (hi - lo);
    assert lo <= e <= hi ==> 0 <= Trunc(x) <= 255 by {
      if lo <= e <= hi {
        TruncWithin(x, 0, 255);
      }
    }
    255 - Trunc(x)
  }

  /** Higher land is never drawn lighter. */
  lemma InvertedGreyAntitone(e1: real, e2: real, lo: real, hi: real)
    requires lo < hi
    requires e1 <= e2
    ensures InvertedGrey(e2, lo, hi) <= InvertedGrey(e1, lo, hi)
  {
    FracMonotone(e1, e2, lo, hi);
    ScaledFrac(e1, lo, hi, 255.0);
    ScaledFrac(e2, lo, hi, 255.0);
    TruncMonotone((e1 - lo) * 255.0 / (hi - lo), (e2 - lo) * 255.0 / (hi - lo));
  }

  /** The grey byte of the grayscale mode, which the satellite mode reuses as
      its height byte: land in the upper half, sea in the lower half. */
  function HeightByte(w: World, land: Extremes, sea: Extremes, x: int, y: int): (c: int)
    requires w.Valid() && w.InBounds(x, y)
    requires SplitScaled(w, land, sea)
    ensures !w.ocean[y][x] ==> 128 <= c <= 255
    ensures w.ocean[y][x] ==> 0 <= c <= 127
  {
    var e := w.elevation[y][x];
    if !w.ocean[y][x] then
      assert InPartition(w, LandCells, x, y);
      LandByte(e, land.lo, land.hi)
    else
      assert InPartition(w, SeaCells, x, y);
      SeaByte(e, sea.lo, sea.hi)
  }
}

=== FILE: ocean_map.dfy ===
/** `draw_ocean`: a two-colour map of the ocean mask, blue for sea and cyan
    for land. The mask's shape gives the canvas size. */
module OceanMap {
  import opened Colors

  const LandCyan: Rgba := Rgba(0, 255, 255, Opaque)

  function Pixel(sea: bool): (p: Rgba)
    ensures p.a == Opaque && p.b == 255 && p.r == 0
    ensures sea <==> p.g == 0
    ensures !sea ==> p.g == 255
  {
    if sea then SeaBlue else LandCyan
  }

  /** The map of a rectangular mask. */
  function Draw(mask: seq<seq<bool>>): (c: Canvas)
    ensures |c| == |mask| && forall y :: 0 <= y < |mask| ==> |c[y]| == |mask[y]|
    ensures forall y, x :: 0 <= y < |mask| && 0 <= x < |mask[y]| ==> c[y][x] == Pixel(mask[y][x])
  {
    seq(|mask|, y requires 0 <= y < |mask| =>
      seq(|mask[y]|, x requires 0 <= x < |mask[y]| => Pixel(mask[y][x])))
  }

  /** The mask read back from a map: sea where green is off. */
  function Read(c: Canvas): (mask: seq<seq<bool>>)
    ensures |mask| == |c| && forall y :: 0 <= y < |c| ==> |mask[y]| == |c[y]|
  {
    seq(|c|, y requires 0 <= y < |c| =>
      seq(|c[y]|, x requires 0 <= x < |c[y]| => c[y][x].g == 0))
  }

  /** The map loses nothing: reading it back gives the mask. */
  lemma {:induction false} ReadDraw(mask: seq<seq<bool>>)
    ensures Read(Draw(mask)) == mask
  {
    var m := Read(Draw(mask));
    forall y | 0 <= y < |mask|
      ensures m[y] == mask[y]
    {
    }
  }

  /** Every map is drawn in the two colours only, and any canvas in those
      two colours is the map of the mask it reads back as. */
  lemma {:induction false} DrawRead(c: Canvas)
    requires forall y, x :: 0 <= y < |c| && 0 <= x < |c[y]| ==> c[y][x] == SeaBlue || c[y][x] == LandCyan
    ensures Draw(Read(c)) == c
  {
    var d := Draw(Read(c));
    forall y | 0 <= y < |c|
      ensures d[y] == c[y]
    {
    }
  }

  /** A one-row world of a sea cell and a land cell is drawn as a blue and a
      cyan pixel. */
  lemma SeaThenLand()
    ensures Draw([[true, false]]) == [[SeaBlue, LandCyan]]
  {
    assert Draw([[true, false]])[0] == [SeaBlue, LandCyan];
  }
}

=== FILE: satellite.dfy ===
/** `draw_satellite` end to end: the extremes scan, then the base colours, the
    in-place smoothing and the relief shading, each pass reading the canvas
    the previous one left. The source needs both a land and a sea partition
    with some spread: a missing partition leaves its extremes `None` and the
    subtraction raises, a flat one divides zero by zero and `int()` of the
    result raises. */
module Satellite {
  import opened Colors
  import opened Worlds
  import opened SatelliteBase
  import opened Smoothing
  import opened Shading

  /** The three passes composed, for extremes that make them defined. A cell
      that neither later pass rewrites keeps its first-pass colour: every
      ocean cell, and land on the border outside the shading window. */
  function SatelliteImage(w: World, land: Extremes, sea: Extremes, noise: seq<seq<Color>>): (img: Image)
    requires w.Valid() && BiomesKnown(w) && IsGrid(noise, w.width, w.height)
    requires SplitScaled(w, land, sea)
    ensures IsGrid(img, w.width, w.height)
    ensures forall x, y :: w.InBounds(x, y) && !Smoothable(w, x, y) && !(InShadeWindow(w, x, y) && !w.ocean[y][x]) ==>
      img[y][x] == BasePass(w, land, sea, noise)[y][x]
  {
    var base := BasePass(w, land, sea, noise);
    var smooth := SmoothFrom(w, base, 1, 1);
    assert forall x, y :: w.InBounds(x, y) && !Smoothable(w, x, y) ==> smooth[y][x] == base[y][x] by {
      forall x, y | w.InBounds(x, y) && !Smoothable(w, x, y)
        ensures smooth[y][x] == base[y][x]
      {
        SmoothFromKeeps(w, base, 1, 1, x, y);
      }
    }
    ShadePass(w, smooth)
  }

  /** `draw_satellite`, with the random noise of every land cell given as
      `noise[y][x]` (sea cells ignore theirs). It raises exactly when land or
      sea is missing or flat; otherwise it draws the three passes in order,
      using the extremes it returns. */
  method DrawSatellite(w: World, noise: seq<seq<Color>>) returns (r: Drawing, land: Extremes, sea: Extremes)
    requires w.Valid() && BiomesKnown(w) && IsGrid(noise, w.width, w.height)
    ensures IsExtremesOf(w, LandCells, land) && IsExtremesOf(w, SeaCells, sea)
    ensures r.Raises? <==> !(Spread(w, LandCells) && Spread(w, SeaCells))
    ensures r.Drawn? ==> SplitScaled(w, land, sea) && r.canvas == OpaqueCanvas(SatelliteImage(w, land, sea, noise))
  {
    land := FindExtremes(w, LandCells);
    sea := FindExtremes(w, SeaCells);
    SpreadIff(w, LandCells, land);
    SpreadIff(w, SeaCells, sea);
    if !(Proper(land) && Proper(sea)) {
      return Raises, land, sea;
    }
    var img := BasePass(w, land, sea, noise);
    img := Smooth(w, img);
    img := Shade(w, img);
    r := Drawn(OpaqueCanvas(img));
  }
}

=== FILE: satellite_base.dfy ===
/** The first pass of `draw_satellite`: every cell gets its biome's satellite
    colour, brightened by a tenth of its height byte, plus per-channel noise
    that the elevation band shifts; the two mountain bands also tint the biome
    colour halfway towards a fixed mountain colour. Sea cells get no noise.
    Channels are not clamped. The random draw of the source is an argument
    here, one noise triple per cell. */
module SatelliteBase {
  import opened Colors
  import opened Worlds
  import opened Normalize
  import opened BiomeColors

  const NoiseRange: int := 10

  const HighMountainElev: int := 215
  const MountainElev: int := 175
  const HighHillElev: int := 160
  const HillElev: int := 145

  const HighMountainNoiseModifier: Color := Color(10, 6, 10)
  const MountainNoiseModifier: Color := Color(-4, -12, -4)
  const HighHillNoiseModifier: Color := Color(-3, -10, -3)

  const MountainColor: Color := Color(50, 57, 28)

  /** A noise triple as `random.randint(-10, 10)` draws it. */
  predicate IsNoise(n: Color) {
    Within(n, Grey(-NoiseRange), Grey(NoiseRange))
  }

  /** Channel-wise difference. */
  function Minus(a: Color, b: Color): Color {
    Color(a.r - b.r, a.g - b.g, a.b - b.b)
  }

  /** `int((a + b) / 2)` per channel on non-negative integers: the floor of
      the mean. */
  function Blend(a: Color, b: Color): (m: Color)
    ensures forall ch :: 2 * Get(m, ch) <= Get(a, ch) + Get(b, ch) <= 2 * Get(m, ch) + 1
  {
    Color((a.r + b.r) / 2, (a.g + b.g) / 2, (a.b + b.b) / 2)
  }

  /** The land cascade of the first pass, first match wins. The third band
      subtracts its (negative) modifier and the fourth subtracts (2, 6, 2)
      written out in place. */
  function LandBase(biome: Color, c: int, noise: Color): Color {
    var (tint, shifted) :=
      if c > HighMountainElev then
        (Blend(biome, MountainColor), Plus(noise, HighMountainNoiseModifier))
      else if c > MountainElev then
        (Blend(biome, MountainColor), Plus(noise, MountainNoiseModifier))
      else if c > HighHillElev then
        (biome, Minus(noise, HighHillNoiseModifier))
      else if c > HillElev then
        (biome, Color(noise.r - 2, noise.g - 6, noise.b - 2))
      else
        (biome, noise);
    Plus(Plus(tint, Grey(c / 10)), shifted)
  }

  /** The colour the first pass writes for one cell with height byte `c`.
      Every band's effect is an additive shift of the noise, stated here with
      its net sign; the 160-175 band brightens although its modifier is
      negative. */
  function BaseColor(biome: Color, land: bool, c: int, noise: Color): (p: Color)
    ensures !land ==> p == Plus(biome, Grey(c / 10))
    ensures land && c <= HillElev ==> p == Plus(Plus(biome, Grey(c / 10)), noise)
    ensures land && HillElev < c <= HighHillElev ==>
      p == Plus(Plus(biome, Grey(c / 10)), Plus(noise, Color(-2, -6, -2)))
    ensures land && HighHillElev < c <= MountainElev ==>
      p == Plus(Plus(biome, Grey(c / 10)), Plus(noise, Color(3, 10, 3)))
    ensures land && MountainElev < c <= HighMountainElev ==>
      p == Plus(Plus(Blend(biome, MountainColor), Grey(c / 10)), Plus(noise, Color(-4, -12, -4)))
    ensures land && HighMountainElev < c ==>
      p == Plus(Plus(Blend(biome, MountainColor), Grey(c / 10)), Plus(noise, Color(10, 6, 10)))
  {
    if land then LandBase(biome, c, noise) else Plus(biome, Grey(c / 10))
  }

  /** Noise is purely additive: shifting the noise shifts the colour by the
      same amount, in every band. */
  lemma NoiseIsAdditive(biome: Color, c: int, noise: Color, d: Color)
    ensures BaseColor(biome, true, c, Plus(noise, d)) == Plus(BaseColor(biome, true, c, noise), d)
  {
  }

  /** The first pass does not clamp: an ice cell in the 160-175 band with the
      largest noise leaves the byte range. */
  lemma BaseColorCanOverflow()
    ensures BaseColor(Color(255, 255, 255), true, 170, Grey(NoiseRange)).g == 292
  {
  }

  /** Every cell's biome has a satellite colour. */
  ghost predicate BiomesKnown(w: World)
    requires w.Valid()
  {
    forall x, y :: w.InBounds(x, y) ==> w.biome[y][x] in SatelliteColors
  }

  /** The first pass over the whole grid. */
  function BasePass(w: World, land: Extremes, sea: Extremes, noise: seq<seq<Color>>): (img: seq<seq<Color>>)
    requires w.Valid() && BiomesKnown(w) && IsGrid(noise, w.width, w.height)
    requires SplitScaled(w, land, sea)
    ensures IsGrid(img, w.width, w.height)
    ensures forall x, y :: w.InBounds(x, y) ==>
      img[y][x] == BaseColor(SatelliteColor(w.biome[y][x]), !w.ocean[y][x],
                             HeightByte(w, land, sea, x, y), noise[y][x])
  {
    seq(w.height, y requires 0 <= y < w.height =>
      seq(w.width, x requires 0 <= x < w.width =>
        BaseColor(SatelliteColor(w.biome[y][x]), !w.ocean[y][x],
                  HeightByte(w, land, sea, x, y), noise[y][x])))
  }

  /** Sea cells of the first pass are never darker than their biome colour
      and never brighter than it plus 12. */
  lemma SeaBaseBounds(w: World, land: Extremes, sea: Extremes, noise: seq<seq<Color>>, x: int, y: int)
    requires w.Valid() && BiomesKnown(w) && IsGrid(noise, w.width, w.height)
    requires SplitScaled(w, land, sea)
    requires w.InBounds(x, y) && w.ocean[y][x]
    ensures var b := SatelliteColor(w.biome[y][x]);
      Within(BasePass(w, land, sea, noise)[y][x], b, Plus(b, Grey(12)))
  {
  }

  /** A land cell of the first pass lies between 10 below and 45 above its
      (possibly tinted) biome colour when the noise is in range: the height
      term adds 12 to 25 and the shifted noise -22 to +20. */
  lemma LandBaseBounds(biome: Color, c: int, noise: Color)
    requires 128 <= c <= 255 && IsNoise(noise)
    ensures var tint := if c > MountainElev then Blend(biome, MountainColor) else biome;
      Within(BaseColor(biome, true, c, noise), Plus(tint, Grey(12 - 22)), Plus(tint, Grey(25 + 20)))
  {
  }
}

=== FILE: shaded_elevation.dfy ===
/** `draw_elevation`: sea is pure blue; land is an inverted grey of its
    elevation over the land extremes, optionally darkened by up to 30 when
    the cells diagonally up-left of it rise above it, the darkening clamped
    at 0. The up-left cells are read from the raw elevation, sea included. */
module ShadedElevation {
  import opened Colors
  import opened Worlds
  import opened Normalize

  /** How much the optional shadow darkens a cell of elevation `e` whose
      up-left neighbours at distance 1, 2 and 3 have elevations `d1`, `d2`,
      `d3`: 15 when the nearest is higher, 10 when the second is higher than
      the cell and the nearest, 5 when the third is higher than all three. */
  function ShadowPenalty(e: real, d1: real, d2: real, d3: real): (p: int)
    ensures 0 <= p <= 30 && p % 5 == 0
    ensures p == 0 <==> d1 <= e && d2 <= e && d3 <= e
    ensures p == 30 <==> e < d1 < d2 < d3
  {
    (if d1 > e then 15 else 0)
    + (if d2 > e && d2 > d1 then 10 else 0)
    + (if d3 > e && d3 > d1 && d3 > d2 then 5 else 0)
  }

  /** The shadow is applied to this cell. */
  predicate Shadowed(shadow: bool, x: int, y: int) {
    shadow && y > 2 && x > 2
  }

  /** The land grey before any shadow. */
  function PlainGrey(w: World, land: Extremes, x: int, y: int): (c: int)
    requires w.Valid() && w.InBounds(x, y) && !w.ocean[y][x]
    requires IsExtremesOf(w, LandCells, land) && Proper(land)
    ensures 0 <= c <= 255
  {
    assert InPartition(w, LandCells, x, y);
    InvertedGrey(w.elevation[y][x], land.lo, land.hi)
  }

  /** The penalty for a land cell where the shadow applies: none exactly
      when no up-left neighbour rises above the cell, and never more than 30. */
  function CellPenalty(w: World, x: int, y: int): (p: int)
    requires w.Valid() && w.InBounds(x, y) && x > 2 && y > 2
    ensures 0 <= p <= 30
    ensures var e := w.elevation[y][x];
      p == 0 <==> w.elevation[y - 1][x - 1] <= e && w.elevation[y - 2][x - 2] <= e
                  && w.elevation[y - 3][x - 3] <= e
  {
    ShadowPenalty(w.elevation[y][x], w.elevation[y - 1][x - 1],
                  w.elevation[y - 2][x - 2], w.elevation[y - 3][x - 3])
  }

  /** The extremes fit: exact, and proper whenever there is land to draw. */
  ghost predicate LandScaled(w: World, land: Extremes)
    requires w.Valid()
  {
    IsExtremesOf(w, LandCells, land) && (land.Range? ==> land.lo < land.hi)
  }

  /** The pixel of one cell. */
  function Pixel(w: World, shadow: bool, land: Extremes, x: int, y: int): (p: Rgba)
    requires w.Valid() && w.InBounds(x, y) && LandScaled(w, land)
    ensures w.ocean[y][x] <==> p == SeaBlue
    ensures !w.ocean[y][x] ==>
      && p.g == p.r && p.b == p.r && p.a == Opaque
      && 0 <= p.r <= PlainGrey(w, land, x, y)
      && (!Shadowed(shadow, x, y) ==> p.r == PlainGrey(w, land, x, y))
      && p.r >= PlainGrey(w, land, x, y) - 30
    ensures !w.ocean[y][x] && Shadowed(shadow, x, y) ==>
      var shaded := PlainGrey(w, land, x, y) - CellPenalty(w, x, y);
      p.r == (if shaded < 0 then 0 else shaded)
  {
    if w.ocean[y][x] then SeaBlue
    else
      assert InPartition(w, LandCells, x, y);
      var plain := PlainGrey(w, land, x, y);
      var c :=
        if Shadowed(shadow, x, y) then
          var shaded := plain - CellPenalty(w, x, y);
          if shaded < 0 then 0 else shaded
        else plain;
      Rgba(c, c, c, Opaque)
  }

  function Canvas(w: World, shadow: bool, land: Extremes): (c: Colors.Canvas)
    requires w.Valid() && LandScaled(w, land)
    ensures IsGrid(c, w.width, w.height)
    ensures forall x, y :: w.InBounds(x, y) ==> c[y][x] == Pixel(w, shadow, land, x, y)
  {
    seq(w.height, y requires 0 <= y < w.height =>
      seq(w.width, x requires 0 <= x < w.width => Pixel(w, shadow, land, x, y)))
  }

  /** `draw_elevation`. It raises exactly when there is land and all of it
      has one elevation; a world without land is drawn all blue. */
  method DrawElevation(w: World, shadow: bool) returns (r: Drawing, land: Extremes)
    requires w.Valid()
    ensures IsExtremesOf(w, LandCells, land)
    ensures r.Raises? <==> land.Range? && !Spread(w, LandCells)
    ensures r.Drawn? ==> LandScaled(w, land) && r.canvas == Canvas(w, shadow, land)
    ensures r.Drawn? && land.NoCells? ==>
      forall x, y :: w.InBounds(x, y) ==> r.canvas[y][x] == SeaBlue
  {
    land := FindExtremes(w, LandCells);
    SpreadIff(w, LandCells, land);
    if land.Range? && land.lo == land.hi {
      return Raises, land;
    }
    r := Drawn(Canvas(w, shadow, land));
  }

  /** The shadow leaves a land cell's grey alone exactly when none of its
      three up-left neighbours is higher than it, or when the grey is already
      black. */
  lemma ShadowOnlyBehindHigherGround(w: World, shadow: bool, land: Extremes, x: int, y: int)
    requires w.Valid() && w.InBounds(x, y) && LandScaled(w, land)
    requires !w.ocean[y][x] && Shadowed(shadow, x, y)
    ensures var e := w.elevation[y][x];
      Pixel(w, shadow, land, x, y).r == PlainGrey(w, land, x, y)
      <==> PlainGrey(w, land, x, y) == 0
           || (w.elevation[y - 1][x - 1] <= e && w.elevation[y - 2][x - 2] <= e
               && w.elevation[y - 3][x - 3] <= e)
  {
  }

  /** Higher land is never drawn lighter when no shadow is applied. */
  lemma PlainGreyAntitone(w: World, land: Extremes, x1: int, y1: int, x2: int, y2: int)
    requires w.Valid() && LandScaled(w, land)
    requires w.InBounds(x1, y1) && !w.ocean[y1][x1] && w.InBounds(x2, y2) && !w.ocean[y2][x2]
    requires w.elevation[y1][x1] <= w.elevation[y2][x2]
    ensures Pixel(w, false, land, x2, y2).r <= Pixel(w, false, land, x1, y1).r
  {
    assert InPartition(w, LandCells, x1, y1);
    InvertedGreyAntitone(w.elevation[y1][x1], w.elevation[y2][x2], land.lo, land.hi);
  }
}

=== FILE: shading.dfy ===
/** The third pass of `draw_satellite`: relief shading. Each land cell of the
    shading window is brightened or darkened by nine times the truncated
    difference between its elevation and the truncated mean elevation of the
    five cells diagonally up-left of it. The same amount goes to all three
    channels and nothing is clamped. The pass reads only the cell's own
    colour, so its in-place row-major order does not matter. */
module Shading {
  import opened Colors
  import opened Worlds

  const ShadeSize: int := 5
  const DifferenceMultiplier: int := 9

  /** The cells the pass visits: columns and rows from `ShadeSize - 1` up to
      but excluding `ShadeSize + 1` before the far edge. */
  predicate InShadeWindow(w: World, x: int, y: int) {
    && ShadeSize - 1 <= x < w.width - ShadeSize - 1
    && ShadeSize - 1 <= y < w.height - ShadeSize - 1
  }

  /** numpy indexing: a negative index counts back from the end. At the first
      row or column of the window the fifth look-back reads index -1, the last
      row or column. */
  function WrapIndex(i: int, n: int): (r: int)
    requires -n <= i < n
    ensures 0 <= r < n
    ensures r % n == i % n
  {
    if i < 0 then i + n else i
  }

  /** The elevation `k` cells up-left of (x, y). */
  function Lookback(w: World, x: int, y: int, k: int): real
    requires w.Valid() && InShadeWindow(w, x, y) && 1 <= k <= ShadeSize
  {
    w.elevation[WrapIndex(y - k, w.height)][WrapIndex(x - k, w.width)]
  }

  /** The sum of the first `n` look-back elevations. */
  function LookbackSum(w: World, x: int, y: int, n: int): real
    requires w.Valid() && InShadeWindow(w, x, y) && 0 <= n <= ShadeSize
  {
    if n == 0 then 0.0 else LookbackSum(w, x, y, n - 1) + Lookback(w, x, y, n)
  }

  /** The amount the pass adds to each channel of a land cell in the window. */
  function ShadeDelta(w: World, x: int, y: int): (d: int)
    requires w.Valid() && InShadeWindow(w, x, y)
    ensures d % DifferenceMultiplier == 0
  {
    var avg := Trunc(LookbackSum(w, x, y, ShadeSize) / ShadeSize as real);
    DifferenceMultiplier * Trunc(w.elevation[y][x] - avg as real)
  }

  /** What the pass leaves in one cell, given the canvas before it: the
      three channels move together by a multiple of nine, and only on land
      inside the window. */
  function ShadedPixel(w: World, img: Image, x: int, y: int): (p: Color)
    requires w.Valid() && IsGrid(img, w.width, w.height) && w.InBounds(x, y)
    ensures var d := p.r - img[y][x].r;
      p == Plus(img[y][x], Grey(d)) && d % DifferenceMultiplier == 0
    ensures !(InShadeWindow(w, x, y) && !w.ocean[y][x]) ==> p == img[y][x]
  {
    if InShadeWindow(w, x, y) && !w.ocean[y][x] then
      Plus(img[y][x], Grey(ShadeDelta(w, x, y)))
    else
      img[y][x]
  }

  /** The whole third pass, each cell computed from the canvas before it. */
  function ShadePass(w: World, img: Image): (out: Image)
    requires w.Valid() && IsGrid(img, w.width, w.height)
    ensures IsGrid(out, w.width, w.height)
    ensures forall x, y :: w.InBounds(x, y) ==> out[y][x] == ShadedPixel(w, img, x, y)
  {
    seq(w.height, y requires 0 <= y < w.height =>
      seq(w.width, x requires 0 <= x < w.width => ShadedPixel(w, img, x, y)))
  }

  /** The third pass as the source runs it, in place and row by row. Every
      cell ends as `ShadedPixel` of the canvas before the pass; all three
      channels move by the same multiple of nine, and only land cells of the
      window move. */
  method Shade(w: World, img: Image) returns (out: Image)
    requires w.Valid() && IsGrid(img, w.width, w.height)
    ensures IsGrid(out, w.width, w.height)
    ensures out == ShadePass(w, img)
    ensures forall x, y :: w.InBounds(x, y) ==>
      var d := out[y][x].r - img[y][x].r;
      out[y][x] == Plus(img[y][x], Grey(d)) && d % DifferenceMultiplier == 0
    ensures forall x, y :: w.InBounds(x, y) && !(InShadeWindow(w, x, y) && !w.ocean[y][x]) ==>
      out[y][x] == img[y][x]
  {
    out := img;
    var y := ShadeSize - 1;
    while y < w.height - ShadeSize - 1
      invariant ShadeSize - 1 <= y
      invariant IsGrid(out, w.width, w.height)
      invariant forall x', y' :: w.InBounds(x', y') ==>
        out[y'][x'] == (if y' < y then ShadedPixel(w, img, x', y') else img[y'][x'])
    {
      var x := ShadeSize - 1;
      while x < w.width - ShadeSize - 1
        invariant ShadeSize - 1 <= x
        invariant IsGrid(out, w.width, w.height)
        invariant forall x', y' :: w.InBounds(x', y') ==>
          out[y'][x'] == (if Before(x', y', x, y) then ShadedPixel(w, img, x', y') else img[y'][x'])
      {
        if !w.ocean[y][x] {
          var d := ShadeDelta(w, x, y);
          out := out[y := out[y][x := Plus(out[y][x], Grey(d))]];
        }
        x := x + 1;
      }
      y := y + 1;
    }
    var full := ShadePass(w, img);
    assert forall y' :: 0 <= y' < w.height ==> out[y'] == full[y'];
  }

  /** The look-back sum of a constant field is five times the constant. */
  lemma {:induction false} LookbackSumConstant(w: World, x: int, y: int, n: int, v: real)
    requires w.Valid() && InShadeWindow(w, x, y) && 0 <= n <= ShadeSize
    requires forall i, j :: w.InBounds(i, j) ==> w.elevation[j][i] == v
    ensures LookbackSum(w, x, y, n) == n as real * v
  {
    if n > 0 {
      LookbackSumConstant(w, x, y, n - 1, v);
      assert n as real * v == (n - 1) as real * v + v;
    }
  }

  /** On a constant elevation field every shading delta is zero, so the pass
      leaves the canvas unchanged. */
  lemma ShadeConstantElevation(w: World, img: Image, v: real)
    requires w.Valid() && IsGrid(img, w.width, w.height)
    requires forall i, j :: w.InBounds(i, j) ==> w.elevation[j][i] == v
    ensures forall x, y :: InShadeWindow(w, x, y) ==> ShadeDelta(w, x, y) == 0
    ensures forall x, y :: w.InBounds(x, y) ==> ShadedPixel(w, img, x, y) == img[y][x]
  {
    forall x, y | InShadeWindow(w, x, y)
      ensures ShadeDelta(w, x, y) == 0
    {
      LookbackSumConstant(w, x, y, ShadeSize, v);
      assert LookbackSum(w, x, y, ShadeSize) / ShadeSize as real == v;
      var t := Trunc(v);
      assert -1.0 < v - t as real < 1.0;
    }
  }

  /** The look-back sum of elevations all at most (at least) `e` is at most
      (at least) `n` times `e`. */
  lemma {:induction false} LookbackSumBound(w: World, x: int, y: int, n: int, e: real, above: bool)
    requires w.Valid() && InShadeWindow(w, x, y) && 0 <= n <= ShadeSize
    requires forall k :: 1 <= k <= n ==> if above then Lookback(w, x, y, k) <= e else Lookback(w, x, y, k) >= e
    ensures above ==> LookbackSum(w, x, y, n) <= n as real * e
    ensures !above ==> LookbackSum(w, x, y, n) >= n as real * e
  {
    if n > 0 {
      LookbackSumBound(w, x, y, n - 1, e, above);
      assert n as real * e == (n - 1) as real * e + e;
    }
  }

  /** A cell at least as high as all five cells up-left of it is never
      darkened, and one at most as high is never brightened. */
  lemma ShadeSign(w: World, x: int, y: int)
    requires w.Valid() && InShadeWindow(w, x, y)
    ensures (forall k :: 1 <= k <= ShadeSize ==> Lookback(w, x, y, k) <= w.elevation[y][x])
            ==> ShadeDelta(w, x, y) >= 0
    ensures (forall k :: 1 <= k <= ShadeSize ==> Lookback(w, x, y, k) >= w.elevation[y][x])
            ==> ShadeDelta(w, x, y) <= 0
  {
    var e := w.elevation[y][x];
    var mean := LookbackSum(w, x, y, ShadeSize) / ShadeSize as real;
    var t := Trunc(mean);
    if forall k :: 1 <= k <= ShadeSize ==> Lookback(w, x, y, k) <= e {
      LookbackSumBound(w, x, y, ShadeSize, e, true);
      assert mean <= e;
      assert e - t as real > -1.0;
    }
    if forall k :: 1 <= k <= ShadeSize ==> Lookback(w, x, y, k) >= e {
      LookbackSumBound(w, x, y, ShadeSize, e, false);
      assert mean >= e;
      assert e - t as real < 1.0;
    }
  }
}

=== FILE: simple_elevation.dfy ===
/** `draw_simple_elevation`: every cell's elevation is rescaled with its
    partition's extremes and coloured with `elevation_color`. Land is
    stretched over [1,12] and sea over [0,1], so with a sea level of 1 the
    land uses the land bands and every sea cell except the highest uses the
    sea ramps; the highest sits at exactly 1 and takes the first land band.
    With no sea level every cell is rescaled as land and the ramp's own sea
    level becomes -1, which reads the land bands 1.0 higher than the
    height. */
module SimpleElevation {
  import opened Colors
  import opened Worlds
  import opened Normalize
  import opened ElevationColor

  /** The partition the land extremes are taken over. */
  function LandScope(sea: SeaLevel): Partition {
    if sea.Unset? then AllCells else LandCells
  }

  /** The cell is rescaled with the land extremes. */
  predicate ScaledAsLand(w: World, sea: SeaLevel, x: int, y: int)
    requires w.Valid() && w.InBounds(x, y)
  {
    sea.Unset? || !w.ocean[y][x]
  }

  /** The extremes the mode divides by are exact and proper; the sea
      extremes matter only when a sea level is given. */
  ghost predicate Scaled(w: World, sea: SeaLevel, land: Extremes, water: Extremes)
    requires w.Valid()
  {
    && Proper(land) && IsExtremesOf(w, LandScope(sea), land)
    && (sea.Level? ==> Proper(water) && IsExtremesOf(w, SeaCells, water))
  }

  /** The value handed to `elevation_color` for one cell. */
  function CellHeight(w: World, sea: SeaLevel, land: Extremes, water: Extremes, x: int, y: int): (h: real)
    requires w.Valid() && w.InBounds(x, y) && Scaled(w, sea, land, water)
    ensures ScaledAsLand(w, sea, x, y) ==>
      && 1.0 <= h <= 12.0
      && (h == 1.0 <==> w.elevation[y][x] == land.lo)
      && (h == 12.0 <==> w.elevation[y][x] == land.hi)
    ensures !ScaledAsLand(w, sea, x, y) ==>
      && 0.0 <= h <= 1.0
      && (h == 0.0 <==> w.elevation[y][x] == water.lo)
      && (h == 1.0 <==> w.elevation[y][x] == water.hi)
  {
    var e := w.elevation[y][x];
    if ScaledAsLand(w, sea, x, y) then
      assert InPartition(w, LandScope(sea), x, y);
      SimpleLandRange(e, land.lo, land.hi);
      SimpleLand(e, land.lo, land.hi)
    else
      assert InPartition(w, SeaCells, x, y);
      SimpleSea(e, water.lo, water.hi)
  }

  /** The pixel `int(channel * 255)` of a saturated colour, opaque. */
  function Bytes(c: Rgb): (p: Rgba)
    requires InUnitCube(c)
    ensures IsByte(p.r) && IsByte(p.g) && IsByte(p.b) && p.a == Opaque
  {
    Rgba(ToByte(c.r), ToByte(c.g), ToByte(c.b), Opaque)
  }

  /** The pixel the mode draws for one cell. Cells rescaled as land get the
      land band colour of their height above the ramp's sea level whenever
      that sea level is at most 1; with no sea level the bands are read 1.0
      higher than the height. With a positive sea level, sea cells are drawn
      without red. */
  function Pixel(w: World, sea: SeaLevel, land: Extremes, water: Extremes, x: int, y: int): (p: Rgba)
    requires w.Valid() && w.InBounds(x, y) && Scaled(w, sea, land, water)
    ensures IsByte(p.r) && IsByte(p.g) && IsByte(p.b) && p.a == Opaque
    ensures ScaledAsLand(w, sea, x, y) && Resolve(sea) <= 1.0 ==>
      p == Bytes(LandColor(CellHeight(w, sea, land, water, x, y) - Resolve(sea)))
    ensures sea.Unset? ==> p == Bytes(LandColor(CellHeight(w, sea, land, water, x, y) + 1.0))
    ensures !ScaledAsLand(w, sea, x, y) && Resolve(sea) > 0.0 ==> p.r == 0
  {
    var h := CellHeight(w, sea, land, water, x, y);
    var c := ElevationColorOf(h, sea);
    assert !ScaledAsLand(w, sea, x, y) && Resolve(sea) > 0.0 ==> c.r == 0.0 by {
      if !ScaledAsLand(w, sea, x, y) && Resolve(sea) > 0.0 && OnLand(h, sea) {
        assert 0.0 <= h - Resolve(sea) < BandStart(1);
      }
    }
    Bytes(c)
  }

  /** The whole canvas. */
  function Canvas(w: World, sea: SeaLevel, land: Extremes, water: Extremes): (c: Colors.Canvas)
    requires w.Valid() && Scaled(w, sea, land, water)
    ensures IsGrid(c, w.width, w.height)
    ensures forall x, y :: w.InBounds(x, y) ==> c[y][x] == Pixel(w, sea, land, water, x, y)
  {
    seq(w.height, y requires 0 <= y < w.height =>
      seq(w.width, x requires 0 <= x < w.width => Pixel(w, sea, land, water, x, y)))
  }

  /** `draw_simple_elevation`. It raises exactly when the land scope is
      missing or flat, or, with a sea level, when the sea is; otherwise every
      pixel is `Pixel` for the extremes it returns. */
  method DrawSimpleElevation(w: World, sea: SeaLevel) returns (r: Drawing, land: Extremes, water: Extremes)
    requires w.Valid()
    ensures IsExtremesOf(w, LandScope(sea), land)
    ensures sea.Level? ==> IsExtremesOf(w, SeaCells, water)
    ensures r.Raises? <==> !Spread(w, LandScope(sea)) || (sea.Level? && !Spread(w, SeaCells))
    ensures r.Drawn? ==> Scaled(w, sea, land, water) && r.canvas == Canvas(w, sea, land, water)
  {
    land := FindExtremes(w, LandScope(sea));
    SpreadIff(w, LandScope(sea), land);
    water := NoCells;
    if sea.Level? {
      water := FindExtremes(w, SeaCells);
      SpreadIff(w, SeaCells, water);
    }
    if !Proper(land) || (sea.Level? && !Proper(water)) {
      return Raises, land, water;
    }
    r := Drawn(Canvas(w, sea, land, water));
  }

  /** With the usual sea level of 1, every sea cell but the shallowest is
      drawn in pure blues (no red, blue at least 191), the deepest as
      (0, 0, 191), and the shallowest as the dark green (0, 127, 0) that the
      land ramp starts with, the same colour as the lowest land cell. */
  lemma SeaLevelOneSeaColors(w: World, land: Extremes, water: Extremes, x: int, y: int)
    requires w.Valid() && w.InBounds(x, y) && Scaled(w, Level(1.0), land, water)
    requires w.ocean[y][x]
    ensures var p := Pixel(w, Level(1.0), land, water, x, y);
      w.elevation[y][x] < water.hi ==> p.r == 0 && p.b >= 191
    ensures w.elevation[y][x] == water.lo ==>
      Pixel(w, Level(1.0), land, water, x, y) == Rgba(0, 0, 191, Opaque)
    ensures w.elevation[y][x] == water.hi ==>
      Pixel(w, Level(1.0), land, water, x, y) == Rgba(0, 127, 0, Opaque)
  {
    var h := CellHeight(w, Level(1.0), land, water, x, y);
    if h < 1.0 {
      SeaColorIsBlue(h, 1.0);
      var c := ElevationColorOf(h, Level(1.0));
      TruncMonotone(0.75 * 255.0, c.b * 255.0);
    }
  }

  /** With a sea level of 1 the lowest land cell gets the same dark green as
      the shallowest sea cell. */
  lemma LowestLandIsDarkGreen(w: World, land: Extremes, water: Extremes, x: int, y: int)
    requires w.Valid() && w.InBounds(x, y) && Scaled(w, Level(1.0), land, water)
    requires !w.ocean[y][x] && w.elevation[y][x] == land.lo
    ensures Pixel(w, Level(1.0), land, water, x, y) == Rgba(0, 127, 0, Opaque)
  {
  }
}

=== FILE: smoothing.dfy ===
/** The second pass of `draw_satellite`: every land cell inside the one-cell
    border is replaced by the floor mean of the land cells of its 3x3 window.
    The pass works in place, row by row, reading the canvas it is writing, so
    the up-left, up, up-right and left neighbours it averages have already
    been smoothed. `SmoothFrom` states that order as a recursive reference;
    `Smooth` is the loop. */
module Smoothing {
  import opened Colors
  import opened Worlds

  /** A cell the second pass rewrites: land, strictly inside the border. */
  predicate Smoothable(w: World, x: int, y: int)
    requires w.Valid()
  {
    1 <= x <= w.width - 2 && 1 <= y <= w.height - 2 && !w.ocean[y][x]
  }

  /** The cell's colour if it is land, otherwise nothing. */
  function Pick(w: World, img: Image, x: int, y: int): (s: seq<Color>)
    requires w.Valid() && IsGrid(img, w.width, w.height) && w.InBounds(x, y)
    ensures !w.ocean[y][x] ==> s == [img[y][x]]
    ensures w.ocean[y][x] ==> s == []
  {
    if !w.ocean[y][x] then [img[y][x]] else []
  }

  /** The land colours of row `j` of the window centred on column `x`. */
  function WindowRow(w: World, img: Image, x: int, j: int): seq<Color>
    requires w.Valid() && IsGrid(img, w.width, w.height)
    requires 1 <= x <= w.width - 2 && 0 <= j < w.height
  {
    Pick(w, img, x - 1, j) + Pick(w, img, x, j) + Pick(w, img, x + 1, j)
  }

  /** The land colours of the 3x3 window centred on (x, y), row by row. */
  function Window(w: World, img: Image, x: int, y: int): seq<Color>
    requires w.Valid() && IsGrid(img, w.width, w.height)
    requires 1 <= x <= w.width - 2 && 1 <= y <= w.height - 2
  {
    WindowRow(w, img, x, y - 1) + WindowRow(w, img, x, y) + WindowRow(w, img, x, y + 1)
  }

  function ChannelSum(s: seq<Color>, ch: Channel): int {
    if |s| == 0 then 0 else Get(s[0], ch) + ChannelSum(s[1..], ch)
  }

  /** `int(sum(all) / len(all))` per channel: Python 2 floor division, so
      each channel is the largest integer whose multiple by the count does
      not exceed the channel's sum. */
  function Mean(s: seq<Color>): (m: Color)
    requires |s| > 0
    ensures forall ch :: |s| * Get(m, ch) <= ChannelSum(s, ch) < |s| * (Get(m, ch) + 1)
  {
    var m := Color(ChannelSum(s, Red) / |s|, ChannelSum(s, Green) / |s|, ChannelSum(s, Blue) / |s|);
    assert forall ch :: |s| * Get(m, ch) <= ChannelSum(s, ch) < |s| * (Get(m, ch) + 1) by {
      forall ch
        ensures |s| * Get(m, ch) <= ChannelSum(s, ch) < |s| * (Get(m, ch) + 1)
      {
        FloorDivBounds(ChannelSum(s, ch), |s|);
      }
    }
    m
  }

  /** Floor division brackets the dividend between two consecutive
      multiples of the divisor. */
  lemma FloorDivBounds(total: int, n: int)
    requires n > 0
    ensures n * (total / n) <= total < n * (total / n + 1)
  {
    var q, r := total / n, total % n;
    assert total == q * n + r && 0 <= r < n;
    assert n * (q + 1) == q * n + n;
  }

  /** One step of the pass at (x, y), on the canvas as it stands: a land
      cell takes the mean of its window, which is never empty since it holds
      the cell itself; every other cell, and the cell itself on sea, keeps
      its colour. */
  function SmoothCell(w: World, img: Image, x: int, y: int): (r: Image)
    requires w.Valid() && IsGrid(img, w.width, w.height)
    requires 1 <= x <= w.width - 2 && 1 <= y <= w.height - 2
    ensures IsGrid(r, w.width, w.height)
    ensures forall j :: 0 <= j < w.height && j != y ==> r[j] == img[j]
    ensures forall i :: 0 <= i < w.width && i != x ==> r[y][i] == img[y][i]
    ensures w.ocean[y][x] ==> r == img
    ensures !w.ocean[y][x] ==> |Window(w, img, x, y)| > 0 && r[y][x] == Mean(Window(w, img, x, y))
  {
    if !w.ocean[y][x] then
      assert img[y][x] in WindowRow(w, img, x, y);
      img[y := img[y][x := Mean(Window(w, img, x, y))]]
    else
      img
  }

  /** The rest of the pass, from cell (x, y) on in row-major order. Cells
      before (x, y) in that order are already final and are not touched
      again. */
  function SmoothFrom(w: World, img: Image, x: int, y: int): (r: Image)
    requires w.Valid() && IsGrid(img, w.width, w.height)
    requires 1 <= x && 1 <= y
    ensures IsGrid(r, w.width, w.height)
    ensures forall i, j {:trigger r[j][i]} :: w.InBounds(i, j) && Before(i, j, x, y) ==> r[j][i] == img[j][i]
    decreases w.height - y, w.width - x
  {
    if y >= w.height - 1 then img
    else if x >= w.width - 1 then SmoothFrom(w, img, 1, y + 1)
    else SmoothFrom(w, SmoothCell(w, img, x, y), x + 1, y)
  }

  /** The second pass as the source runs it: two nested loops updating the
      canvas in place. It rewrites nothing but the smoothable cells. */
  method Smooth(w: World, img: Image) returns (out: Image)
    requires w.Valid() && IsGrid(img, w.width, w.height)
    ensures out == SmoothFrom(w, img, 1, 1)
    ensures IsGrid(out, w.width, w.height)
    ensures forall x, y :: w.InBounds(x, y) && !Smoothable(w, x, y) ==> out[y][x] == img[y][x]
  {
    out := img;
    var y := 1;
    while y < w.height - 1
      invariant 1 <= y
      invariant IsGrid(out, w.width, w.height)
      invariant SmoothFrom(w, out, 1, y) == SmoothFrom(w, img, 1, 1)
    {
      out := SmoothRow(w, out, y);
      y := y + 1;
    }
    forall x, y | w.InBounds(x, y) && !Smoothable(w, x, y)
      ensures out[y][x] == img[y][x]
    {
      SmoothFromKeeps(w, img, 1, 1, x, y);
    }
  }

  /** The inner loop of the pass: row `y`, left to right, in place. What is
      left of the pass afterwards starts at the next row. */
  method SmoothRow(w: World, img: Image, y: int) returns (out: Image)
    requires w.Valid() && IsGrid(img, w.width, w.height)
    requires 1 <= y < w.height - 1
    ensures IsGrid(out, w.width, w.height)
    ensures SmoothFrom(w, out, 1, y + 1) == SmoothFrom(w, img, 1, y)
  {
    out := img;
    var x := 1;
    while x < w.width - 1
      invariant 1 <= x
      invariant IsGrid(out, w.width, w.height)
      invariant SmoothFrom(w, out, x, y) == SmoothFrom(w, img, 1, y)
    {
      if !w.ocean[y][x] {
        var window := Window(w, out, x, y);
        assert out[y][x] in WindowRow(w, out, x, y);
        out := out[y := out[y][x := Mean(window)]];
      }
      x := x + 1;
    }
  }

  /** Cells that are not smoothable keep their colour through the pass. */
  lemma {:induction false} SmoothFromKeeps(w: World, img: Image, x0: int, y0: int, x: int, y: int)
    requires w.Valid() && IsGrid(img, w.width, w.height)
    requires 1 <= x0 && 1 <= y0
    requires w.InBounds(x, y) && !Smoothable(w, x, y)
    ensures SmoothFrom(w, img, x0, y0)[y][x] == img[y][x]
    decreases w.height - y0, w.width - x0
  {
    if y0 >= w.height - 1 {
    } else if x0 >= w.width - 1 {
      SmoothFromKeeps(w, img, 1, y0 + 1, x, y);
    } else {
      var next := SmoothCell(w, img, x0, y0);
      assert next[y][x] == img[y][x];
      SmoothFromKeeps(w, next, x0 + 1, y0, x, y);
      SmoothFromStep(w, img, x0, y0);
    }
  }

  /** Every land cell's colour lies in the box [lo, hi]. */
  ghost predicate LandWithin(w: World, img: Image, lo: Color, hi: Color)
    requires w.Valid() && IsGrid(img, w.width, w.height)
  {
    forall x, y :: w.InBounds(x, y) && !w.ocean[y][x] ==> Within(img[y][x], lo, hi)
  }

  /** A channel sum of values in [lo, hi] lies between n*lo and n*hi. */
  lemma {:induction false} ChannelSumWithin(s: seq<Color>, ch: Channel, lo: int, hi: int)
    requires forall i :: 0 <= i < |s| ==> lo <= Get(s[i], ch) <= hi
    ensures |s| * lo <= ChannelSum(s, ch) <= |s| * hi
  {
    if |s| > 0 {
      var t := s[1..];
      ChannelSumWithin(t, ch, lo, hi);
      var n := |t|;
      assert (n + 1) * lo == n * lo + lo && (n + 1) * hi == n * hi + hi;
    }
  }

  /** The floor of a mean of values in [lo, hi] lies in [lo, hi]. */
  lemma FloorMeanWithin(total: int, n: int, lo: int, hi: int)
    requires n > 0
    requires n * lo <= total <= n * hi
    ensures lo <= total / n <= hi
  {
    var q, r := total / n, total % n;
    assert total == q * n + r && 0 <= r < n;
    assert (q + 1) * n == q * n + n;
    MulCancel(lo, q + 1, n);
    MulCancel(q, hi + 1, n);
  }

  /** Multiplication by a positive number reflects strict order. */
  lemma MulCancel(a: int, b: int, n: int)
    requires n > 0
    requires a * n < b * n
    ensures a < b
  {
    if a >= b {
      MulMonotone(b, a, n);
    }
  }

  lemma MulMonotone(a: int, b: int, n: int)
    requires n > 0 && a <= b
    ensures a * n <= b * n
  {
    assert b * n == a * n + (b - a) * n;
  }

  /** The mean of colours in a box lies in the box. */
  lemma MeanWithin(s: seq<Color>, lo: Color, hi: Color)
    requires |s| > 0
    requires forall c :: c in s ==> Within(c, lo, hi)
    ensures Within(Mean(s), lo, hi)
  {
    assert forall i :: 0 <= i < |s| ==> s[i] in s;
    ChannelSumWithin(s, Red, lo.r, hi.r);
    FloorMeanWithin(ChannelSum(s, Red), |s|, lo.r, hi.r);
    ChannelSumWithin(s, Green, lo.g, hi.g);
    FloorMeanWithin(ChannelSum(s, Green), |s|, lo.g, hi.g);
    ChannelSumWithin(s, Blue, lo.b, hi.b);
    FloorMeanWithin(ChannelSum(s, Blue), |s|, lo.b, hi.b);
  }

  /** A window holds only land colours of the canvas. */
  lemma WindowWithin(w: World, img: Image, x: int, y: int, lo: Color, hi: Color)
    requires w.Valid() && IsGrid(img, w.width, w.height)
    requires 1 <= x <= w.width - 2 && 1 <= y <= w.height - 2
    requires LandWithin(w, img, lo, hi)
    ensures forall c :: c in Window(w, img, x, y) ==> Within(c, lo, hi)
  {
    WindowRowWithin(w, img, x, y - 1, lo, hi);
    WindowRowWithin(w, img, x, y, lo, hi);
    WindowRowWithin(w, img, x, y + 1, lo, hi);
  }

  /** A window row holds only land colours of the canvas. */
  lemma WindowRowWithin(w: World, img: Image, x: int, j: int, lo: Color, hi: Color)
    requires w.Valid() && IsGrid(img, w.width, w.height)
    requires 1 <= x <= w.width - 2 && 0 <= j < w.height
    requires LandWithin(w, img, lo, hi)
    ensures forall c :: c in WindowRow(w, img, x, j) ==> Within(c, lo, hi)
  {
    var a, b, c := Pick(w, img, x - 1, j), Pick(w, img, x, j), Pick(w, img, x + 1, j);
    assert forall d :: d in a ==> Within(d, lo, hi);
    assert forall d :: d in b ==> Within(d, lo, hi);
    assert forall d :: d in c ==> Within(d, lo, hi);
  }

  /** One step keeps every land colour in the box. */
  lemma SmoothCellWithin(w: World, img: Image, x: int, y: int, lo: Color, hi: Color)
    requires w.Valid() && IsGrid(img, w.width, w.height)
    requires 1 <= x <= w.width - 2 && 1 <= y <= w.height - 2
    requires LandWithin(w, img, lo, hi)
    ensures LandWithin(w, SmoothCell(w, img, x, y), lo, hi)
  {
    if !w.ocean[y][x] {
      assert img[y][x] in WindowRow(w, img, x, y);
      WindowWithin(w, img, x, y, lo, hi);
      MeanWithin(Window(w, img, x, y), lo, hi);
    }
  }

  /** One unfolding of the rest of the pass at a cell inside the border. */
  lemma SmoothFromStep(w: World, img: Image, x0: int, y0: int)
    requires w.Valid() && IsGrid(img, w.width, w.height)
    requires 1 <= x0 < w.width - 1 && 1 <= y0 < w.height - 1
    ensures SmoothFrom(w, img, x0, y0) == SmoothFrom(w, SmoothCell(w, img, x0, y0), x0 + 1, y0)
  {
  }

  /** The rest of the pass keeps every land colour in the box. */
  lemma {:induction false} SmoothFromWithin(w: World, img: Image, x0: int, y0: int, lo: Color, hi: Color)
    requires w.Valid() && IsGrid(img, w.width, w.height)
    requires 1 <= x0 && 1 <= y0
    requires LandWithin(w, img, lo, hi)
    ensures LandWithin(w, SmoothFrom(w, img, x0, y0), lo, hi)
    decreases w.height - y0, w.width - x0, 1
  {
    if y0 >= w.height - 1 {
    } else if x0 >= w.width - 1 {
      SmoothFromWithin(w, img, 1, y0 + 1, lo, hi);
    } else {
      SmoothStepWithin(w, img, x0, y0, lo, hi);
    }
  }

  /** The box bound across one step of the pass inside the border. */
  lemma {:induction false} SmoothStepWithin(w: World, img: Image, x0: int, y0: int, lo: Color, hi: Color)
    requires w.Valid() && IsGrid(img, w.width, w.height)
    requires 1 <= x0 < w.width - 1 && 1 <= y0 < w.height - 1
    requires LandWithin(w, img, lo, hi)
    ensures LandWithin(w, SmoothFrom(w, img, x0, y0), lo, hi)
    decreases w.height - y0, w.width - x0, 0
  {
    var next := SmoothCell(w, img, x0, y0);
    SmoothCellWithin(w, img, x0, y0, lo, hi);
    SmoothFromWithin(w, next, x0 + 1, y0, lo, hi);
    SmoothFromStep(w, img, x0, y0);
  }

  /** Smoothing never leaves the range of the land colours it starts from:
      if every land cell lies in a box before the pass, every land cell lies
      in it afterwards. */
  lemma SmoothPreservesLandRange(w: World, img: Image, lo: Color, hi: Color)
    requires w.Valid() && IsGrid(img, w.width, w.height)
    requires LandWithin(w, img, lo, hi)
    ensures LandWithin(w, SmoothFrom(w, img, 1, 1), lo, hi)
  {
    SmoothFromWithin(w, img, 1, 1, lo, hi);
  }

  /** A canvas whose land cells share one colour is a fixed point of the
      pass. */
  lemma {:induction false} SmoothFromUniform(w: World, img: Image, x0: int, y0: int, p: Color)
    requires w.Valid() && IsGrid(img, w.width, w.height)
    requires 1 <= x0 && 1 <= y0
    requires LandWithin(w, img, p, p)
    ensures SmoothFrom(w, img, x0, y0) == img
    decreases w.height - y0, w.width - x0
  {
    if y0 >= w.height - 1 {
    } else if x0 >= w.width - 1 {
      SmoothFromUniform(w, img, 1, y0 + 1, p);
    } else {
      SmoothCellUniform(w, img, x0, y0, p);
      SmoothFromUniform(w, img, x0 + 1, y0, p);
      SmoothFromStep(w, img, x0, y0);
    }
  }

  /** One step on a canvas whose land cells share one colour changes
      nothing. */
  lemma SmoothCellUniform(w: World, img: Image, x: int, y: int, p: Color)
    requires w.Valid() && IsGrid(img, w.width, w.height)
    requires 1 <= x <= w.width - 2 && 1 <= y <= w.height - 2
    requires LandWithin(w, img, p, p)
    ensures SmoothCell(w, img, x, y) == img
  {
    var next := SmoothCell(w, img, x, y);
    if !w.ocean[y][x] {
      WindowWithin(w, img, x, y, p, p);
      MeanWithin(Window(w, img, x, y), p, p);
      assert next[y][x] == img[y][x];
    }
    forall j | 0 <= j < w.height
      ensures next[j] == img[j]
    {
      assert forall i :: 0 <= i < w.width ==> next[j][i] == img[j][i];
    }
  }

  /** The uniform-colour fixed point, for the whole pass. */
  lemma SmoothUniformFixedPoint(w: World, img: Image, p: Color)
    requires w.Valid() && IsGrid(img, w.width, w.height)
    requires LandWithin(w, img, p, p)
    ensures SmoothFrom(w, img, 1, 1) == img
  {
    SmoothFromUniform(w, img, 1, 1, p);
  }
}

=== FILE: worlds.dfy ===
/** The fields of a generated world that the renderer reads, and the per-
    partition elevation extremes the height-based render modes compute
    before they draw: a row-major scan in three of them, numpy's masked
    `min()`/`max()` in `draw_elevation`, which give the same values since
    the extremes are unique. */
module Worlds {

  /** `g` has `height` rows of `width` cells, indexed `g[y][x]`. */
  predicate IsGrid<T>(g: seq<seq<T>>, width: nat, height: nat) {
    |g| == height && forall y :: 0 <= y < height ==> |g[y]| == width
  }

  /** The world as the renderer sees it: elevation, the ocean mask (true for
      sea) and the biome name of every cell. */
  datatype World = World(
    width: nat,
    height: nat,
    elevation: seq<seq<real>>,
    ocean: seq<seq<bool>>,
    biome: seq<seq<string>>)
  {
    predicate Valid() {
      IsGrid(elevation, width, height) && IsGrid(ocean, width, height)
      && IsGrid(biome, width, height)
    }

    predicate InBounds(x: int, y: int) {
      0 <= x < width && 0 <= y < height
    }
  }

  /** Which cells an extreme is taken over. `AllCells` is used by the simple
      elevation mode when no sea level is given. */
  datatype Partition = LandCells | SeaCells | AllCells

  predicate InPartition(w: World, p: Partition, x: int, y: int)
    requires w.Valid() && w.InBounds(x, y)
  {
    match p
    case LandCells => !w.ocean[y][x]
    case SeaCells => w.ocean[y][x]
    case AllCells => true
  }

  /** The smallest and largest elevation of a partition, or nothing when the
      partition has no cells (the source's `None`). */
  datatype Extremes = NoCells | Range(lo: real, hi: real)

  /** `ext` is exactly the extremes of partition `p`: both bounds are attained
      and every cell of the partition lies between them. */
  ghost predicate IsExtremesOf(w: World, p: Partition, ext: Extremes)
    requires w.Valid()
  {
    match ext
    case NoCells =>
      forall x, y :: w.InBounds(x, y) ==> !InPartition(w, p, x, y)
    case Range(lo, hi) =>
      && (forall x, y :: w.InBounds(x, y) && InPartition(w, p, x, y) ==>
            lo <= w.elevation[y][x] <= hi)
      && (exists x, y :: w.InBounds(x, y) && InPartition(w, p, x, y) && w.elevation[y][x] == lo)
      && (exists x, y :: w.InBounds(x, y) && InPartition(w, p, x, y) && w.elevation[y][x] == hi)
  }

  /** Cell (x, y) comes before (x0, y0) in row-major order. */
  predicate Before(x: int, y: int, x0: int, y0: int) {
    y < y0 || (y == y0 && x < x0)
  }

  /** The scan invariant: `ext` bounds every partition cell before (x0, y0),
      and is `NoCells` exactly when there is none. */
  ghost predicate BoundsScanned(w: World, p: Partition, ext: Extremes, x0: int, y0: int)
    requires w.Valid()
  {
    match ext
    case NoCells =>
      forall x, y :: w.InBounds(x, y) && Before(x, y, x0, y0) ==> !InPartition(w, p, x, y)
    case Range(lo, hi) =>
      forall x, y :: w.InBounds(x, y) && Before(x, y, x0, y0) && InPartition(w, p, x, y) ==>
        lo <= w.elevation[y][x] <= hi
  }

  /** The first loop of `draw_simple_elevation`, `draw_grayscale_heightmap` and
      `draw_satellite` for one partition: a row-major scan that keeps the
      running minimum and maximum. */
  method FindExtremes(w: World, p: Partition) returns (ext: Extremes)
    requires w.Valid()
    ensures IsExtremesOf(w, p, ext)
    ensures ext.Range? ==> ext.lo <= ext.hi
  {
    ext := NoCells;
    // Cells attaining the current minimum and maximum.
    ghost var loX, loY, hiX, hiY := 0, 0, 0, 0;
    var y := 0;
    while y < w.height
      invariant 0 <= y <= w.height
      invariant BoundsScanned(w, p, ext, 0, y)
      invariant ext.Range? ==> ext.lo <= ext.hi
      invariant ext.Range? ==> w.InBounds(loX, loY) && InPartition(w, p, loX, loY)
                                 && w.elevation[loY][loX] == ext.lo
      invariant ext.Range? ==> w.InBounds(hiX, hiY) && InPartition(w, p, hiX, hiY)
                                 && w.elevation[hiY][hiX] == ext.hi
    {
      var x := 0;
      while x < w.width
        invariant 0 <= x <= w.width
        invariant BoundsScanned(w, p, ext, x, y)
        invariant ext.Range? ==> ext.lo <= ext.hi
        invariant ext.Range? ==> w.InBounds(loX, loY) && InPartition(w, p, loX, loY)
                                   && w.elevation[loY][loX] == ext.lo
        invariant ext.Range? ==> w.InBounds(hiX, hiY) && InPartition(w, p, hiX, hiY)
                                   && w.elevation[hiY][hiX] == ext.hi
      {
        if InPartition(w, p, x, y) {
          var e := w.elevation[y][x];
          match ext
          case NoCells =>
            ext := Range(e, e);
            loX, loY, hiX, hiY := x, y, x, y;
          case Range(lo, hi) =>
            if e < lo {
              ext := ext.(lo := e);
              loX, loY := x, y;
            }
            if e > hi {
              ext := ext.(hi := e);
              hiX, hiY := x, y;
            }
        }
        x := x + 1;
      }
      y := y + 1;
    }
    if ext.Range? {
      assert w.InBounds(loX, loY) && InPartition(w, p, loX, loY) && w.elevation[loY][loX] == ext.lo;
      assert w.InBounds(hiX, hiY) && InPartition(w, p, hiX, hiY) && w.elevation[hiY][hiX] == ext.hi;
    }
  }

  /** A range that is not flat, so dividing by its width is defined. */
  predicate Proper(ext: Extremes) {
    ext.Range? && ext.lo < ext.hi
  }

  /** `land` and `sea` are the extremes of the land and sea partitions and
      both are proper: what the grayscale and satellite modes divide by. */
  ghost predicate SplitScaled(w: World, land: Extremes, sea: Extremes)
    requires w.Valid()
  {
    && Proper(land) && IsExtremesOf(w, LandCells, land)
    && Proper(sea) && IsExtremesOf(w, SeaCells, sea)
  }

  /** The partition holds two cells of different elevation, so its range is
      not flat and dividing by it is defined. */
  ghost predicate Spread(w: World, p: Partition)
    requires w.Valid()
  {
    exists x1, y1, x2, y2 ::
      && w.InBounds(x1, y1) && InPartition(w, p, x1, y1)
      && w.InBounds(x2, y2) && InPartition(w, p, x2, y2)
      && w.elevation[y1][x1] != w.elevation[y2][x2]
  }

  /** The extremes of a partition are a proper range exactly when the
      partition is spread. */
  lemma SpreadIff(w: World, p: Partition, ext: Extremes)
    requires w.Valid() && IsExtremesOf(w, p, ext)
    ensures Spread(w, p) <==> Proper(ext)
  {
    if Spread(w, p) {
      var x1, y1, x2, y2 :|
        && w.InBounds(x1, y1) && InPartition(w, p, x1, y1)
        && w.InBounds(x2, y2) && InPartition(w, p, x2, y2)
        && w.elevation[y1][x1] != w.elevation[y2][x2];
      assert ext.Range?;
    }
    if ext.Range? && ext.lo < ext.hi {
      var x1, y1 :| w.InBounds(x1, y1) && InPartition(w, p, x1, y1) && w.elevation[y1][x1] == ext.lo;
      var x2, y2 :| w.InBounds(x2, y2) && InPartition(w, p, x2, y2) && w.elevation[y2][x2] == ext.hi;
      assert w.elevation[y1][x1] != w.elevation[y2][x2];
    }
  }

  /** A partition has only one extremes value, so any two scans agree. */
  lemma ExtremesUnique(w: World, p: Partition, a: Extremes, b: Extremes)
    requires w.Valid() && IsExtremesOf(w, p, a) && IsExtremesOf(w, p, b)
    ensures a == b
  {
    if a.Range? && b.Range? {
      var x1, y1 :| w.InBounds(x1, y1) && InPartition(w, p, x1, y1) && w.elevation[y1][x1] == a.lo;
      var x2, y2 :| w.InBounds(x2, y2) && InPartition(w, p, x2, y2) && w.elevation[y2][x2] == b.lo;
      var x3, y3 :| w.InBounds(x3, y3) && InPartition(w, p, x3, y3) && w.elevation[y3][x3] == a.hi;
      var x4, y4 :| w.InBounds(x4, y4) && InPartition(w, p, x4, y4) && w.elevation[y4][x4] == b.hi;
    }
  }
}
